=== FILE: README.md ===
# PhaseOne push loop and worker client, modelled in Dafny

This project models two pieces of a distributed k-means system built on message queues.

- **PhaseOne** is the coordinator's distribution phase. It reads batches of points from the
  data store. It labels each batch as a numbered point group and serializes it. It then
  pushes each stored group `R` times (`redundant_calculations`) on the work channel with
  non-blocking sends. On the control channel it answers `REQCENTROIDS` by publishing its
  centroid group. It reports `<uid> START` when it begins and `<uid> DONE <clusters_sent>`
  when it ends. The pushes and the DONE report are what the code evidently intends; as
  written, the loop reads and pushes nothing and never reports DONE (see "## Findings").
  The model states both builds, and the lemmas about distribution are about the corrected
  one.
- **Client** is the worker side. It joins with `-1 JOIN` and reads the coordinator's
  `<id> GOOD` reply. It subscribes to `BROADCAST` and to its id. It also keeps lists of
  assigned points and centroids.

Modules:

- `JavaText` (`java_text.dfy`) holds the pieces of `java.lang` the message formats depend on:
  - 32-bit `int` wrap-around;
  - `Integer.toString` and `Integer.parseInt`, with the round trip proved between them;
  - `String.split(" ")`, including the rule that drops trailing empty strings, with
    split/join lemmas.
- `Shared` (`shared.dfy`) defines points, point groups and bytes.
- `Messages` (`messages.dfy`) holds the text formats (JOIN, START, DONE, the centroid label)
  and the dispatch of one control message.
- `PhaseOne` (`phase_one.dfy`) holds PhaseOne's fields as an immutable `State`, plus
  `getNextGroup` and `attemptTransmitPointGroup` as pure functions.
- `PhaseOneLoop` (`phase_one_loop.dfy`) models the `while (true)` loop of `run`.
  - Each pass is one `Tick`. The outside world supplies, per pass, whether the send succeeds
    and what the control receive returns (`TickInput`).
  - Observable effects form an event trace: reports, groups read, payloads pushed and
    centroid publishes.
  - Two builds are modelled side by side:
    - `AsWritten` is the code as it stands.
    - `Corrected` fixes the defects listed under Findings.
  - Whole-run lemmas cover:
    - invariants;
    - in-order consumption of the source;
    - group numbering;
    - push accounting;
    - termination with the DONE report.
- `PhaseOneScenario` (`phase_one_scenario.dfy`) is a worked run of the corrected build:
  three batches, `R` pushes each.
- `Client` (`client.dfy`) models the join handshake, point and centroid bookkeeping, and the
  clearing loop of `main`.

A control message with fewer than two tokens makes `msg_parts[1]` (`PhaseOne.java:168`)
throw, and `run` has no handler for that exception. The model therefore ends the run as
`Crashed` on such a message, in both builds (`Messages.DispatchControl`,
`PhaseOneLoop.HandleControl`).

`getNextGroup` reads `clusterid` (`PhaseOne.java:110`), but that name is a local variable of
`run` (`PhaseOne.java:143`), so the class does not compile as written. The model keeps the
counter as a field, `clusterId`. It starts at 0 and is post-incremented with 32-bit
wrap-around on every group read, which is evidently what was meant.

## Model

| member | source | states |
|---|---|---|
| JavaText.ParseIntOfIntToString | client/src/client/Client.java:65 | `Integer.parseInt` reads back every `int` that `Integer.toString` wrote, negative values and the extremes included |
| JavaText.IntToStringInjective | client/src/server/PhaseOne.java:110 | different group numbers give different group-id strings |
| JavaText.SplitJoin | client/src/client/Client.java:63 | `split(" ")` of space-free tokens joined by single spaces gives back exactly those tokens, when the last one is non-empty |
| JavaText.SplitIsFieldPrefix | client/src/server/PhaseOne.java:166 | the tokens `split` returns are the leading fields of the string cut at each space, and every field it drops is empty |
| Messages.DispatchControl | client/src/server/PhaseOne.java:163-178 | a control message is malformed exactly when it has fewer than two tokens, and triggers a centroid publish exactly when its second token is `REQCENTROIDS` |
| Messages.PublishWhenShaped | client/src/server/PhaseOne.java:166-168 | every message `<word> REQCENTROIDS[ ...]` triggers a publish, whatever the first word |
| Messages.PublishOnlyWhenShaped | client/src/server/PhaseOne.java:166-168 | conversely, a message that triggers a publish has the shape `<space-free word> REQCENTROIDS` followed by nothing or a space-led tail |
| Messages.StartReportTokens | client/src/server/PhaseOne.java:141 | the START report splits into the uid and `START` |
| Messages.DoneReportTokens | client/src/server/PhaseOne.java:190 | the DONE report splits into the uid, `DONE` and the decimal count |
| Messages.ReportsRoundTrip | client/src/server/PhaseOne.java:190 | the START and DONE reports are read back as the uid and the exact count that were sent, for any space-free uid |
| Messages.CentroidLabelTokens | client/src/server/PhaseOne.java:93 | the centroid label splits into uid, `CENTROID` and the iteration number, and that number parses back to the iteration |
| Messages.JoinRequestTokens | client/src/client/Client.java:59-60 | the join request is the previous id -1 followed by `JOIN` |
| PhaseOne.GenCentroids | client/src/server/PhaseOne.java:92-95 | the centroid group holds the starting centroids, its label is `<uid> CENTROID <iteration>` token by token, and no other field changes |
| PhaseOne.Initial | client/src/server/PhaseOne.java:24 | corrected constructor: `transmitted` starts true and the counter 0, the loop invariant holds whenever `R >= 0`, and nothing else differs from the object as constructed |
| PhaseOne.InitialAsWritten | client/src/server/PhaseOne.java:62-90 | after construction the counter and `clusters_sent` are 0, the iteration is 1, nothing is stored and `transmitted` is false |
| PhaseOne.Encode | client/src/server/PhaseOne.java:114-124 | a group's bytes are its serialization, or the one-byte sentinel `{0}` when serialization throws |
| PhaseOne.GetNextGroup | client/src/server/PhaseOne.java:107-136 | nothing is read unless the last send succeeded; otherwise one batch is read and labelled with the post-incremented group number; a non-empty batch whose bytes are not one byte long is stored for `R` pushes; an empty batch or a failed serialization stores nothing; no other field changes |
| PhaseOne.AttemptTransmitAsWritten | client/src/server/PhaseOne.java:98-105 | `transmitted` records the send outcome, and only a successful send counts one off the counter |
| PhaseOne.AttemptTransmit | client/src/server/PhaseOne.java:98-105 | as above, and `clusters_sent` goes up by one exactly when a successful send completes a group's `R` pushes |
| PhaseOneLoop.HandleControl | client/src/server/PhaseOne.java:162-180 | a control receive leaves the state and source alone; it publishes the centroid group exactly on a `REQCENTROIDS` dispatch and crashes exactly on a malformed message |
| PhaseOneLoop.FetchPhase | client/src/server/PhaseOne.java:146-154 | a group is read only when the counter is 0 and the last send succeeded; the points read are a prefix of the source |
| PhaseOneLoop.PushPhase | client/src/server/PhaseOne.java:156-180 | with a group pending, one send is attempted and its payload is pushed exactly when the send succeeds; a pending counter with nothing stored ends the run; otherwise the pass crashes exactly on a malformed control message and ends by publishing the centroids exactly when they are requested; the sentinel is never pushed |
| PhaseOneLoop.EndOfData | client/src/server/PhaseOne.java:149-153 | as written, running out of data ends the run with no DONE report; corrected, the run finishes with the DONE report |
| PhaseOneLoop.Tick | client/src/server/PhaseOne.java:144-159 | one pass reads at most one group, only when the counter is 0 and the last send succeeded; it consumes the source in order; it ends normally only in the corrected build, on an empty batch; it numbers the group with the counter; it never pushes the sentinel; it keeps the well-formedness invariants; its control receive is stated by `PhaseOneLoop.TickControl` |
| PhaseOneLoop.TickControl | client/src/server/PhaseOne.java:162-180 | short of the end of data, a well-formed pass crashes exactly on a malformed control message and ends by publishing the centroid group exactly on `REQCENTROIDS` |
| PhaseOneLoop.Run | client/src/server/PhaseOne.java:139-144 | the first thing `run` does is report `<uid> START` |
| PhaseOneLoop.RunKeepsInv | client/src/server/PhaseOne.java:144-182 | across any run the counter stays within [0, R], and a pending counter always has a stored, properly serialized group |
| PhaseOneLoop.RunConsumesInOrder | client/src/server/PhaseOne.java:110 | the groups read in a run are the source's leading batches, whole and in order, and what is left is the rest of the source; the one exception is a dry source, whose empty batch can only be the last group read; no point is skipped or read twice |
| PhaseOneLoop.TickConsumesBatch | client/src/server/PhaseOne.java:107-113 | one pass reads the source's first batch whole, or the empty batch of a dry source, and a pass that goes on has read exactly a leading batch |
| PhaseOneLoop.RunNumbersGroups | client/src/server/PhaseOne.java:110 | the k-th group read in a run is numbered `clusterId + k`, and the counter ends just past the last group |
| PhaseOneLoop.FetchedIdsDistinct | client/src/server/PhaseOne.java:110 | no group id repeats within a run that does not wrap the counter |
| PhaseOneLoop.RunNeverPushesSentinel | client/src/server/PhaseOne.java:126-133 | the one-byte failure sentinel is never pushed in any run |
| PhaseOneLoop.TickAccounting | client/src/server/PhaseOne.java:156-159 | in one corrected pass, either no group completes and the pushes add to the group in flight, or exactly one group completes with its `R`-th push |
| PhaseOneLoop.RunAccounting | client/src/server/PhaseOne.java:98-105 | corrected, the pushes of a run (plus those already made of the group in flight) are exactly `R` for every group counted in `clusters_sent`, plus those of the group still in flight |
| PhaseOneLoop.ClustersSentFrozenAsWritten | client/src/server/PhaseOne.java:190 | as written, `clusters_sent` never moves, so DONE always reports its starting value |
| PhaseOneLoop.StuckUntilTransmitted | client/src/server/PhaseOne.java:107-108 | as written, with counter 0 and `transmitted` false, no group is ever read or pushed and the state never changes |
| PhaseOneLoop.AsWrittenNeverDistributes | client/src/server/PhaseOne.java:139-159 | as written, `run` reads and pushes nothing at all, whatever the sends and control messages do |
| PhaseOneLoop.FirstPassDistributes | client/src/server/PhaseOne.java:107-133 | with `transmitted` starting true, the first pass reads the first batch as group "0", stores it for `R` pushes and pushes it once if the send succeeds |
| PhaseOneLoop.ExhaustionCrashesAsWritten | client/src/server/PhaseOne.java:111-113 | as written, reading an empty batch, from a dry source or early, ends `run` with an uncaught exception: no DONE report, nothing stored or pushed |
| PhaseOneLoop.ExhaustionReportsDone | client/src/server/PhaseOne.java:185-190 | corrected, reading an empty batch, from a dry source or early, ends the loop as finished and sends `<uid> DONE <clusters_sent>` |
| PhaseOneLoop.Drains | client/src/server/PhaseOne.java:144-190 | corrected, with every send succeeding and every group serializing, the remaining pushes of the group in flight plus `R` passes per remaining batch plus one final pass end the loop with a DONE report counting every group |
| PhaseOneLoop.DrainedPushTotal | client/src/server/PhaseOne.java:125-133 | corrected, from an idle state, `m` non-empty batches take exactly `m * R + 1` passes: `m * R` pushes in total, then a DONE report counting `m` groups |
| PhaseOneLoop.StoredPayloadPushedUntilNextFetch | client/src/server/PhaseOne.java:98-108 | corrected, every push before the next group is read carries the stored payload; there are at most as many as the counter, and exactly as many when another group is read |
| PhaseOneLoop.StoredGroupPushedRTimes | client/src/server/PhaseOne.java:127-131 | corrected, a pass that reads a non-empty, serializable batch opens with that group; every push until the next read is that group's bytes, at most `R` of them, and exactly `R` when another group is read |
| PhaseOneScenario.ThreeGroupsPushedRTimes | client/src/server/PhaseOne.java:55-58 | corrected, three non-empty batches with any redundancy `1 <= R <= 1000` give `3 * R` pushes and end with `<uid> DONE 3` |
| Client.ConnectToSocket | client/src/client/Client.java:55-79 | the join request is `-1 JOIN`; a missing reply, a reply with fewer than two tokens, or a `GOOD` reply with an unparseable id ends the process with status -200; a `GOOD` reply sets the id from token 0 and any other reply keeps the old id; on joining, a fresh subscriber takes exactly `BROADCAST` and token 0 |
| Client.GoodReplyAdmits | client/src/client/Client.java:63-71 | the reply `<id> GOOD` gives the client exactly that id and subscribes it to its own id |
| Client.OtherReplyKeepsUid | client/src/client/Client.java:63-71 | any other two-token reply leaves the id unchanged, yet the client still subscribes to the reply's first token |
| Client.ReceivePoints | client/src/client/Client.java:90-93 | the given points are appended after the points already assigned, in order |
| Client.ReceivePointsAccumulates | client/src/client/Client.java:90-93 | receiving two lists in turn is receiving their concatenation, and no point is lost or duplicated |
| Client.ReceiveCentroids | client/src/client/Client.java:85-87 | the centroid list is replaced wholesale, and nothing else changes |
| Client.ReceiveCentroidsLastWins | client/src/client/Client.java:85-87 | only the latest centroid list counts, and receiving the same list again changes nothing |
| Client.ClearAssignedPoints | client/src/client/Client.java:46-50 | the inner loop of `main` leaves no assigned points; it runs its body once when there were any and not at all otherwise |

## Left out

- Sockets, ports, connecting, binding, subscribing and closing are left out. The send
  outcome and the control receive are per-pass inputs. The transport's topic filtering is
  not modelled either, so every control message given to a pass is taken as delivered.
- The data store (`DatabaseHelper`) is not part of this model. `db.getPoints(group_size)` is
  a list of batches, and `group_size` is not interpreted. After the last batch, an empty
  batch comes back.
- `db.getStartingCentroids(K)` is a parameter (`starting`) of the constructor model.
- Java object serialization is a parameter (`Serializer`) that returns bytes, or nothing for
  the `IOException`.
- The centroid publish is an event carrying the centroid group. In the code, the bytes sent
  are the stream buffer. The unused `msg_bytes` variable and its sentinel are not modelled.
- Logging, `Thread.sleep` and the outer `while (true)` of the client's `main` are left out,
  as are the unbounded loop of `run` and `System.exit`.
  - `run` is run for a finite list of passes (`RunTicks`).
  - The client's exit is the `Exited(-200)` result.
- `control_return` is a REQ socket (`PhaseOne.java:82`). `run` sends START on it (`:141`)
  and, corrected, DONE (`:190`) with no reply read in between. A REQ socket refuses a
  second send before a reply arrives, so whether the DONE report is delivered also depends
  on the transport, which is not modelled; the model records the report as sent.
- `send_update` has an empty body in the source and is not modelled.
- `JavaText.ParseInt` accepts an optional sign and ASCII digits only. Java also accepts
  non-ASCII Unicode digits. No message in this system produces those.
- `Client.ReceiveCentroids` copies the list; Java keeps a reference to the caller's
  `ArrayList`. Later mutation through that alias is not modelled.
- PhaseOneLoop.RunNumbersGroups: stated only for runs too short to wrap the 32-bit group
  counter. The counter itself wraps in the model (`Inc32`).
- PhaseOneLoop.RunAccounting: stated only while `clusters_sent` cannot wrap.
- PhaseOneLoop.DrainedPushTotal: corrected build only; counts the pushes only; it assumes every send succeeds,
  every group serializes to more than one byte, no empty batch comes before the end, and
  no counter wraps. Which payload each push carries is stated by
  `PhaseOneLoop.StoredGroupPushedRTimes`.
- PhaseOneLoop.Drains: stated only for serializers that always succeed, sources with no
  empty batch before the end, and counters that do not wrap.

## Findings

| source | as written | input that shows it | evidently intended | confidence | as-written member | corrected member |
|---|---|---|---|---|---|---|
| client/src/server/PhaseOne.java:24 | `transmitted` has no initializer, so it starts `false`; `getNextGroup` reads only when it is `true`, and the send that could set it runs only when the counter is non-zero | any run from a freshly constructed object: the counter is 0 and `transmitted` is false on every pass | the first pass reads and stores the first group | high (not executed) | PhaseOneLoop.AsWrittenNeverDistributes | PhaseOneLoop.FirstPassDistributes |
| client/src/server/PhaseOne.java:151 | end of data throws `IndexOutOfBoundsException` (line 112), but `run` catches only `NullPointerException`, so the exception leaves `run` before the DONE report | a source whose batches are all consumed: the next read returns an empty batch | the loop ends and `<uid> DONE <count>` is sent | high (not executed) | PhaseOneLoop.ExhaustionCrashesAsWritten | PhaseOneLoop.ExhaustionReportsDone |
| client/src/server/PhaseOne.java:190 | `clusters_sent` is never incremented, so DONE always reports 0 | one batch, R = 1, one successful send: one group is fully pushed, yet the counter stays 0 | `clusters_sent` counts the groups that have had all their pushes | high (not executed) | PhaseOneLoop.ClustersSentFrozenAsWritten | PhaseOneLoop.RunAccounting |

=== FILE: client.dfy ===
/** The worker-side Client: the join handshake and its bookkeeping of assigned points and
    centroids. The class's static fields become one per-client session value. */
module Client {
  import opened Wrappers
  import opened JavaText
  import opened Shared
  import Messages

  /** The client's static fields, minus the sockets. `subscriptions` lists the topics the
      current control subscriber was given, in order; each handshake opens a fresh subscriber,
      so it starts that list anew. */
  datatype Session = Session(
    clientUid: int32,
    assignedPoints: seq<Point>,
    centroids: seq<Point>,
    subscriptions: seq<string>)

  /** The exit status `connect_to_socket` passes to System.exit when anything throws. */
  const ConnectFailure: int := -200

  datatype Connected = Joined(session: Session) | Exited(status: int)

  /** What `connect_to_socket` sends, and what becomes of the client given the reply the
      blocking receive returns (None when it returns null). */
  datatype Handshake = Handshake(request: string, result: Connected)

  /** `connect_to_socket`. The reply is split on spaces; token 1 must exist, a "GOOD" reply
      must carry a parseable id in token 0, and then the client subscribes to BROADCAST and to
      token 0. Any exception ends the process with status -200. */
  function ConnectToSocket(s: Session, reply: Option<string>): (h: Handshake)
    ensures h.request == Messages.JoinRequest
    // a missing reply or one with fewer than two tokens ends the process
    ensures reply.None? || |Split(reply.value, ' ')| < 2 ==> h.result == Exited(ConnectFailure)
    ensures reply.Some? && 2 <= |Split(reply.value, ' ')| ==>
      var parts := Split(reply.value, ' ');
      // the uid is taken from token 0 only on a GOOD reply, and an unparseable one ends the process
      && (parts[1] == "GOOD" && ParseInt(parts[0]).None? ==> h.result == Exited(ConnectFailure))
      && (parts[1] == "GOOD" && ParseInt(parts[0]).Some? ==>
            h.result.Joined? && h.result.session.clientUid == ParseInt(parts[0]).value)
      && (parts[1] != "GOOD" ==> h.result.Joined? && h.result.session.clientUid == s.clientUid)
      // on joining, a fresh subscriber takes BROADCAST and token 0, whatever the reply said
      && (h.result.Joined? ==> h.result.session.subscriptions == ["BROADCAST", parts[0]])
    ensures h.result.Joined? ==>
      && h.result.session.assignedPoints == s.assignedPoints
      && h.result.session.centroids == s.centroids
  {
    var result :=
      match reply
      case None => Exited(ConnectFailure)
      case Some(text) =>
        var parts := Split(text, ' ');
        if |parts| < 2 then Exited(ConnectFailure)
        else
          var uid :=
            if parts[1] == "GOOD" then ParseInt(parts[0])
            else Some(s.clientUid);
          if uid.None? then Exited(ConnectFailure)
          else Joined(s.(clientUid := uid.value, subscriptions := ["BROADCAST", parts[0]]));
    Handshake(Messages.JoinRequest, result)
  }

  /** The coordinator's admission reply "<id> GOOD" gives the client exactly that id and
      subscribes it to its own id's topic. */
  lemma GoodReplyAdmits(s: Session, id: int32)
    ensures var h := ConnectToSocket(s, Some(IntToString(id) + " GOOD"));
      && h.result.Joined?
      && h.result.session.clientUid == id
      && h.result.session.subscriptions == ["BROADCAST", IntToString(id)]
  {
    IntToStringShape(id);
    assert Join([IntToString(id), "GOOD"], ' ') == IntToString(id) + " GOOD";
    SplitJoin([IntToString(id), "GOOD"], ' ');
    ParseIntOfIntToString(id);
  }

  /** Any other two-token reply "<word> <status>" leaves the id alone, yet the client still
      subscribes to <word>. */
  lemma OtherReplyKeepsUid(s: Session, word: string, status: string)
    requires ' ' !in word && ' ' !in status && status != "" && status != "GOOD"
    ensures var h := ConnectToSocket(s, Some(word + " " + status));
      && h.result.Joined?
      && h.result.session.clientUid == s.clientUid
      && h.result.session.subscriptions == ["BROADCAST", word]
  {
    assert Join([word, status], ' ') == word + " " + status;
    SplitJoin([word, status], ' ');
  }

  /** `ReceivePoints`: the given points go after the ones already assigned. */
  function ReceivePoints(s: Session, given: seq<Point>): (t: Session)
    ensures |t.assignedPoints| == |s.assignedPoints| + |given|
    ensures forall i :: 0 <= i < |s.assignedPoints| ==> t.assignedPoints[i] == s.assignedPoints[i]
    ensures forall i :: 0 <= i < |given| ==> t.assignedPoints[|s.assignedPoints| + i] == given[i]
    ensures t == s.(assignedPoints := t.assignedPoints)
  {
    s.(assignedPoints := s.assignedPoints + given)
  }

  /** Receiving two lists one after the other is receiving their concatenation, and no point
      is lost or duplicated. */
  lemma ReceivePointsAccumulates(s: Session, a: seq<Point>, b: seq<Point>)
    ensures ReceivePoints(ReceivePoints(s, a), b) == ReceivePoints(s, a + b)
    ensures multiset(ReceivePoints(s, a).assignedPoints) == multiset(s.assignedPoints) + multiset(a)
  {
    assert s.assignedPoints + a + b == s.assignedPoints + (a + b);
  }

  /** `ReceiveCentroids`: the list is replaced wholesale. */
  function ReceiveCentroids(s: Session, updated: seq<Point>): (t: Session)
    ensures t.centroids == updated
    ensures t.clientUid == s.clientUid && t.assignedPoints == s.assignedPoints
    ensures t.subscriptions == s.subscriptions
  {
    s.(centroids := updated)
  }

  /** Only the latest centroid list counts. */
  lemma ReceiveCentroidsLastWins(s: Session, a: seq<Point>, b: seq<Point>)
    ensures ReceiveCentroids(ReceiveCentroids(s, a), b) == ReceiveCentroids(s, b)
    ensures ReceiveCentroids(ReceiveCentroids(s, a), a) == ReceiveCentroids(s, a)
  {
  }

  /** The inner loop of `main`: while points are assigned, clear them. Returns the session
      after the loop and how many times the loop body ran. */
  method ClearAssignedPoints(s: Session) returns (t: Session, passes: nat)
    ensures t.assignedPoints == []
    ensures t == s.(assignedPoints := [])
    ensures passes == (if |s.assignedPoints| > 0 then 1 else 0)
  {
    t := s;
    passes := 0;
    while |t.assignedPoints| > 0
      invariant t == s.(assignedPoints := t.assignedPoints)
      invariant passes <= 1
      invariant passes == 0 ==> t.assignedPoints == s.assignedPoints
      invariant passes == 1 ==> t.assignedPoints == [] && |s.assignedPoints| > 0
      decreases |t.assignedPoints|
    {
      t := t.(assignedPoints := []);
      passes := passes + 1;
    }
  }
}

=== FILE: java_text.dfy ===
/** The pieces of java.lang that the message formats rely on: 32-bit `int` arithmetic,
    `Integer.toString`, `Integer.parseInt` and `String.split` with a one-character pattern. */
module JavaText {
  import opened Wrappers

  const Int32Min: int := -0x8000_0000
  const Int32Max: int := 0x7fff_ffff

  /** A Java `int`. */
  type int32 = x: int | Int32Min <= x <= Int32Max

  /** Java `x++` on an `int`: wraps from the largest value to the smallest. */
  function Inc32(x: int32): (r: int32)
    ensures x < Int32Max ==> r == x + 1
    ensures x == Int32Max ==> r == Int32Min
  {
    if x == Int32Max then Int32Min else x + 1
  }

  /** Java `x--` on an `int`: wraps from the smallest value to the largest. */
  function Dec32(x: int32): (r: int32)
    ensures x > Int32Min ==> r == x - 1
    ensures x == Int32Min ==> r == Int32Max
  {
    if x == Int32Min then Int32Max else x - 1
  }

  // ---------------------------------------------------------------------------
  // Decimal digits

  predicate IsDigit(c: char) {
    '0' <= c <= '9'
  }

  predicate AllDigits(s: string) {
    forall i :: 0 <= i < |s| ==> IsDigit(s[i])
  }

  function DigitChar(d: nat): (c: char)
    requires d < 10
    ensures IsDigit(c)
  {
    (('0' as int) + d) as char
  }

  function DigitValue(c: char): (d: nat)
    requires IsDigit(c)
    ensures d < 10
  {
    (c as int) - ('0' as int)
  }

  /** The shortest decimal spelling of `n` (no sign, no leading zero). */
  function NatToDigits(n: nat): (s: string)
    ensures 1 <= |s| && AllDigits(s)
    ensures |s| > 1 ==> s[0] != '0'
  {
    if n < 10 then [DigitChar(n)] else NatToDigits(n / 10) + [DigitChar(n % 10)]
  }

  /** The value of a string of decimal digits, most significant first. */
  function DigitsToNat(s: string): nat
    requires AllDigits(s)
  {
    if |s| == 0 then 0 else DigitsToNat(s[..|s| - 1]) * 10 + DigitValue(s[|s| - 1])
  }

  lemma {:induction false} DigitsRoundTrip(n: nat)
    ensures DigitsToNat(NatToDigits(n)) == n
  {
    if n >= 10 {
      var s := NatToDigits(n);
      assert s[..|s| - 1] == NatToDigits(n / 10);
      DigitsRoundTrip(n / 10);
    }
  }

  /** `Integer.toString(n)`: a minus sign for negatives, then the digits. */
  function IntToString(n: int): string {
    if n < 0 then "-" + NatToDigits(-n) else NatToDigits(n)
  }

  lemma IntToStringShape(n: int)
    ensures 1 <= |IntToString(n)|
    ensures ' ' !in IntToString(n)
  {
    var d := NatToDigits(if n < 0 then -n else n);
    assert forall i :: 0 <= i < |d| ==> d[i] != ' ';
    if n < 0 {
      assert IntToString(n) == ['-'] + d;
    }
  }

  /** `Integer.parseInt(s)`: an optional '+' or '-', then one or more ASCII digits, and a
      value that fits in an `int`; None stands for the NumberFormatException. */
  function ParseInt(s: string): (r: Option<int32>)
    ensures r.Some? ==> 1 <= |s|
    ensures r.Some? && s[0] != '-' && s[0] != '+' ==> AllDigits(s) && r.value == DigitsToNat(s)
  {
    if |s| == 0 then None
    else if s[0] == '-' || s[0] == '+' then
      var body := s[1..];
      if |body| == 0 || !AllDigits(body) then None
      else
        var v: int := if s[0] == '-' then 0 - DigitsToNat(body) else DigitsToNat(body);
        if Int32Min <= v <= Int32Max then Some(v) else None
    else if !AllDigits(s) then None
    else
      var v := DigitsToNat(s);
      if v <= Int32Max then Some(v) else None
  }

  /** `Integer.parseInt` inverts `Integer.toString` on every `int`. */
  lemma ParseIntOfIntToString(n: int32)
    ensures ParseInt(IntToString(n)) == Some(n)
  {
    var s := IntToString(n);
    var m: int := n;
    if m < 0 {
      var body := NatToDigits(-m);
      assert s == "-" + body && s[0] == '-';
      assert s[1..] == body;
      DigitsRoundTrip(-m);
    } else {
      assert s == NatToDigits(n);
      assert IsDigit(s[0]);
      DigitsRoundTrip(n);
    }
  }

  /** Distinct `int`s have distinct decimal spellings. */
  lemma IntToStringInjective(a: int32, b: int32)
    requires IntToString(a) == IntToString(b)
    ensures a == b
  {
    ParseIntOfIntToString(a);
    ParseIntOfIntToString(b);
  }

  // ---------------------------------------------------------------------------
  // Splitting on a one-character delimiter

  /** Every piece of `s` between occurrences of `d`, empty pieces included: a string with
      n delimiters has n + 1 fields. */
  function Fields(s: string, d: char): (r: seq<string>)
    ensures 1 <= |r|
    ensures forall i :: 0 <= i < |r| ==> d !in r[i]
    decreases |s|
  {
    if |s| == 0 then [""]
    else
      var rest := Fields(s[1..], d);
      if s[0] == d then [""] + rest
      else [[s[0]] + rest[0]] + rest[1..]
  }

  /** Glues the pieces back together with `d` between consecutive ones. */
  function Join(ts: seq<string>, d: char): string
    requires 1 <= |ts|
  {
    if |ts| == 1 then ts[0] else ts[0] + [d] + Join(ts[1..], d)
  }

  /** Removes empty strings from the end of a list, as `String.split` does. */
  function DropTrailingEmpty(ts: seq<string>): (r: seq<string>)
    ensures |r| <= |ts| && r == ts[..|r|]
    ensures |r| == 0 || r[|r| - 1] != ""
    ensures forall i :: |r| <= i < |ts| ==> ts[i] == ""
  {
    if |ts| == 0 || ts[|ts| - 1] != "" then ts else DropTrailingEmpty(ts[..|ts| - 1])
  }

  /** `s.split(String.valueOf(d))` in Java: with no delimiter present the whole string is the
      only token (even when it is empty); otherwise the fields, minus trailing empty ones.
      Leading and inner empty tokens are kept. */
  function Split(s: string, d: char): seq<string> {
    if d !in s then [s] else DropTrailingEmpty(Fields(s, d))
  }

  lemma {:induction false} JoinFields(s: string, d: char)
    ensures Join(Fields(s, d), d) == s
    decreases |s|
  {
    if |s| > 0 {
      var rest := Fields(s[1..], d);
      JoinFields(s[1..], d);
      if s[0] != d && |rest| > 1 {
        assert Join(rest, d) == rest[0] + [d] + Join(rest[1..], d);
        assert Fields(s, d)[1..] == rest[1..];
      }
    }
  }

  lemma {:induction false} FieldsWithoutDelimiter(u: string, d: char)
    requires d !in u
    ensures Fields(u, d) == [u]
    decreases |u|
  {
    if |u| > 0 {
      FieldsWithoutDelimiter(u[1..], d);
      assert [u[0]] + u[1..] == u;
    }
  }

  /** A delimiter-free prefix ending at a delimiter becomes the first field. */
  lemma {:induction false} FieldsCons(u: string, d: char, v: string)
    requires d !in u
    ensures Fields(u + [d] + v, d) == [u] + Fields(v, d)
    decreases |u|
  {
    if |u| == 0 {
      assert (u + [d] + v)[1..] == v;
    } else {
      assert (u + [d] + v)[1..] == u[1..] + [d] + v;
      FieldsCons(u[1..], d, v);
      assert [u[0]] + u[1..] == u;
    }
  }

  /** Splitting the join of delimiter-free pieces recovers the pieces. */
  lemma {:induction false} FieldsJoin(ts: seq<string>, d: char)
    requires 1 <= |ts|
    requires forall i :: 0 <= i < |ts| ==> d !in ts[i]
    ensures Fields(Join(ts, d), d) == ts
    decreases |ts|
  {
    if |ts| == 1 {
      FieldsWithoutDelimiter(ts[0], d);
    } else {
      FieldsJoin(ts[1..], d);
      FieldsCons(ts[0], d, Join(ts[1..], d));
      assert [ts[0]] + ts[1..] == ts;
    }
  }

  lemma JoinHasDelimiter(ts: seq<string>, d: char)
    requires 2 <= |ts|
    ensures d in Join(ts, d)
  {
    assert Join(ts, d)[|ts[0]|] == d;
  }

  /** `String.split` inverts joining with the delimiter whenever no piece holds the
      delimiter and the last piece is not empty (or is the only one). */
  lemma SplitJoin(ts: seq<string>, d: char)
    requires 1 <= |ts|
    requires forall i :: 0 <= i < |ts| ==> d !in ts[i]
    requires |ts| == 1 || ts[|ts| - 1] != ""
    ensures Split(Join(ts, d), d) == ts
  {
    if |ts| > 1 {
      JoinHasDelimiter(ts, d);
      FieldsJoin(ts, d);
    }
  }

  /** The tokens of `Split` are the leading fields; every field it drops is empty. */
  lemma SplitIsFieldPrefix(s: string, d: char)
    ensures |Split(s, d)| <= |Fields(s, d)|
    ensures Split(s, d) == Fields(s, d)[..|Split(s, d)|]
    ensures forall i :: |Split(s, d)| <= i < |Fields(s, d)| ==> Fields(s, d)[i] == ""
  {
    if d !in s {
      FieldsWithoutDelimiter(s, d);
    }
  }

  /** A non-empty token at index i of `Split` is exactly field i of the string. */
  lemma SplitTokenIsField(s: string, d: char, i: nat, t: string)
    requires t != ""
    ensures (i < |Split(s, d)| && Split(s, d)[i] == t) <==> (i < |Fields(s, d)| && Fields(s, d)[i] == t)
  {
    SplitIsFieldPrefix(s, d);
  }
}

=== FILE: messages.dfy ===
/** The plain-text messages exchanged on the control and report channels. Every message is
    a list of tokens separated by single spaces, and receivers look at the tokens that
    `String.split(" ")` yields. */
module Messages {
  import opened Wrappers
  import opened JavaText

  /** What the client sends to join: previous id -1, command JOIN. */
  const JoinRequest: string := "-1 JOIN"

  /** The report PhaseOne sends when its loop starts. */
  function StartReport(uid: string): string {
    uid + " START"
  }

  /** The report PhaseOne sends when its loop ends, with the number of groups it sent. */
  function DoneReport(uid: string, clustersSent: int): string {
    uid + " DONE " + IntToString(clustersSent)
  }

  /** The label of the centroid group PhaseOne publishes for an iteration. */
  function CentroidLabel(uid: string, iteration: int): string {
    uid + " CENTROID " + IntToString(iteration)
  }

  /** What PhaseOne does with one message from the control channel. */
  datatype ControlAction =
    | Publish     // second token is REQCENTROIDS: publish the centroids
    | Ignore      // any other second token
    | Malformed   // no second token: msg_parts[1] throws ArrayIndexOutOfBoundsException

  function DispatchControl(m: string): (a: ControlAction)
    ensures a == Malformed <==> |Split(m, ' ')| < 2
    ensures a == Publish <==> 2 <= |Split(m, ' ')| && Split(m, ' ')[1] == "REQCENTROIDS"
  {
    var parts := Split(m, ' ');
    if |parts| < 2 then Malformed
    else if parts[1] == "REQCENTROIDS" then Publish
    else Ignore
  }

  /** `m` is a space-free word, one space, `cmd`, and then nothing or a space-led tail. */
  predicate CommandShape(m: string, word: string, cmd: string, tail: string) {
    && ' ' !in word
    && m == word + " " + cmd + tail
    && (tail == "" || tail[0] == ' ')
  }

  lemma SecondFieldOfShape(word: string, cmd: string, tail: string)
    requires ' ' !in word && ' ' !in cmd
    requires tail == "" || tail[0] == ' '
    ensures var fs := Fields(word + " " + cmd + tail, ' '); 2 <= |fs| && fs[0] == word && fs[1] == cmd
  {
    var m := word + " " + cmd + tail;
    assert m == word + [' '] + (cmd + tail);
    FieldsCons(word, ' ', cmd + tail);
    if tail == "" {
      assert cmd + tail == cmd;
      FieldsWithoutDelimiter(cmd, ' ');
    } else {
      assert cmd + tail == cmd + [' '] + tail[1..];
      FieldsCons(cmd, ' ', tail[1..]);
    }
  }

  /** Every message of the shape "<word> REQCENTROIDS[ ...]" triggers a centroid publish,
      whatever the first word is (topic filtering happens in the transport). */
  lemma PublishWhenShaped(word: string, tail: string)
    requires ' ' !in word
    requires tail == "" || tail[0] == ' '
    ensures DispatchControl(word + " REQCENTROIDS" + tail) == Publish
  {
    var m := word + " REQCENTROIDS" + tail;
    assert m == word + " " + "REQCENTROIDS" + tail;
    SecondFieldOfShape(word, "REQCENTROIDS", tail);
    SplitTokenIsField(m, ' ', 1, "REQCENTROIDS");
  }

  /** Conversely, a message triggers a publish only if it has that shape. */
  lemma PublishOnlyWhenShaped(m: string) returns (word: string, tail: string)
    requires DispatchControl(m) == Publish
    ensures CommandShape(m, word, "REQCENTROIDS", tail)
  {
    SplitTokenIsField(m, ' ', 1, "REQCENTROIDS");
    var fs := Fields(m, ' ');
    JoinFields(m, ' ');
    word := fs[0];
    if |fs| == 2 {
      tail := "";
      assert fs[1..] == ["REQCENTROIDS"];
    } else {
      tail := " " + Join(fs[2..], ' ');
      assert fs[1..][1..] == fs[2..];
      assert Join(fs[1..], ' ') == "REQCENTROIDS" + [' '] + Join(fs[2..], ' ');
    }
    assert m == word + [' '] + Join(fs[1..], ' ');
  }

  /** The reports as the coordinator reads them back. */
  datatype Report = Start(uid: string) | Done(uid: string, count: int32)

  function ParseReport(m: string): (r: Option<Report>)
    ensures r.Some? ==> 2 <= |Split(m, ' ')| && r.value.uid == Split(m, ' ')[0]
  {
    var parts := Split(m, ' ');
    if |parts| == 2 && parts[1] == "START" then Some(Start(parts[0]))
    else if |parts| == 3 && parts[1] == "DONE" && ParseInt(parts[2]).Some? then
      Some(Done(parts[0], ParseInt(parts[2]).value))
    else None
  }

  lemma StartReportTokens(uid: string)
    requires ' ' !in uid
    ensures Split(StartReport(uid), ' ') == [uid, "START"]
  {
    assert Join([uid, "START"], ' ') == StartReport(uid);
    SplitJoin([uid, "START"], ' ');
  }

  lemma ThreeTokens(a: string, b: string, c: string)
    requires ' ' !in a && ' ' !in b && ' ' !in c && c != ""
    ensures Split(a + " " + b + " " + c, ' ') == [a, b, c]
  {
    var ts := [a, b, c];
    assert ts[1..] == [b, c];
    assert [b, c][1..] == [c];
    assert Join([b, c], ' ') == b + [' '] + c;
    assert Join(ts, ' ') == a + [' '] + (b + [' '] + c);
    assert a + [' '] + (b + [' '] + c) == a + " " + b + " " + c;
    SplitJoin(ts, ' ');
  }

  lemma DoneReportTokens(uid: string, n: int)
    requires ' ' !in uid
    ensures Split(DoneReport(uid, n), ' ') == [uid, "DONE", IntToString(n)]
  {
    IntToStringShape(n);
    assert DoneReport(uid, n) == uid + " " + "DONE" + " " + IntToString(n);
    ThreeTokens(uid, "DONE", IntToString(n));
  }

  /** The centroid label splits into the uid, CENTROID and the iteration number. */
  lemma CentroidLabelTokens(uid: string, iteration: int32)
    requires ' ' !in uid
    ensures Split(CentroidLabel(uid, iteration), ' ') == [uid, "CENTROID", IntToString(iteration)]
    ensures ParseInt(Split(CentroidLabel(uid, iteration), ' ')[2]) == Some(iteration)
  {
    IntToStringShape(iteration);
    assert CentroidLabel(uid, iteration) == uid + " " + "CENTROID" + " " + IntToString(iteration);
    ThreeTokens(uid, "CENTROID", IntToString(iteration));
    ParseIntOfIntToString(iteration);
  }

  /** The START and DONE reports are read back as what was sent, for any space-free uid. */
  lemma ReportsRoundTrip(uid: string, n: int32)
    requires ' ' !in uid
    ensures ParseReport(StartReport(uid)) == Some(Start(uid))
    ensures ParseReport(DoneReport(uid, n)) == Some(Done(uid, n))
  {
    StartReportTokens(uid);
    DoneReportTokens(uid, n);
    ParseIntOfIntToString(n);
  }

  /** The join request is "<prevId> JOIN" with previous id -1. */
  lemma JoinRequestTokens()
    ensures Split(JoinRequest, ' ') == ["-1", "JOIN"]
    ensures ParseInt(Split(JoinRequest, ' ')[0]) == Some(-1)
  {
    assert Join(["-1", "JOIN"], ' ') == JoinRequest;
    SplitJoin(["-1", "JOIN"], ' ');
    assert IntToString(-1) == "-1";
    ParseIntOfIntToString(-1);
  }
}

=== FILE: phase_one.dfy ===
/** The fields of the coordinator-side PhaseOne and the two steps of its push loop:
    fetching the next group from the data source and attempting one non-blocking push. */
module PhaseOne {
  import opened Wrappers
  import opened JavaText
  import opened Shared
  import Messages

  /** PhaseOne's fields that the loop reads or writes. */
  datatype State = State(
    uid: string,
    clustersSent: int32,
    iterationNum: int32,
    nextTransmission: Option<Bytes>,  // null until a group has been stored
    transmitted: bool,                // outcome of the last send attempt
    redundantSendsLeft: int32,
    redundantCalculations: int32,
    clusterId: int32,                 // group-number counter
    iterationCentroids: PointGroup)

  /** The data source: the batches `getPoints` will return, in order. Once they run out,
      every further call returns an empty batch. */
  type Batches = seq<seq<Point>>

  /** Object serialization of a group; None stands for the IOException. */
  type Serializer = PointGroup -> Option<Bytes>

  /** GenCentroids: the starting centroids, labelled for the current iteration. */
  function GenCentroids(s: State, starting: seq<Point>): (r: State)
    requires ' ' !in s.uid
    ensures r.iterationCentroids.points == starting
    ensures r.iterationCentroids.id == Messages.CentroidLabel(s.uid, s.iterationNum)
    ensures Split(r.iterationCentroids.id, ' ') == [s.uid, "CENTROID", IntToString(s.iterationNum)]
    ensures r == s.(iterationCentroids := r.iterationCentroids)
  {
    Messages.CentroidLabelTokens(s.uid, s.iterationNum);
    s.(iterationCentroids := PointGroup(starting, Messages.CentroidLabel(s.uid, s.iterationNum)))
  }

  /** The object as the constructor leaves it, with `transmitted` taking its Java default
      `false`, as the source declares it. */
  function InitialAsWritten(uid: string, redundantCalculations: int32, starting: seq<Point>): (r: State)
    requires ' ' !in uid
    ensures !r.transmitted && r.redundantSendsLeft == 0 && r.nextTransmission == None
    ensures r.clusterId == 0 && r.clustersSent == 0 && r.iterationNum == 1
    ensures r.uid == uid && r.redundantCalculations == redundantCalculations
    ensures r.iterationCentroids.points == starting
  {
    var blank := State(uid, 0, 1, None, false, 0, redundantCalculations, 0, PointGroup([], ""));
    GenCentroids(blank, starting)
  }

  /** The object as the loop needs it: `transmitted` starts `true`, so the first pass of the
      loop fetches a group. Everything else is as constructed. */
  function Initial(uid: string, redundantCalculations: int32, starting: seq<Point>): (r: State)
    requires ' ' !in uid
    // the first pass fetches, and the loop starts from a state its corrected invariant admits
    ensures r.transmitted && r.redundantSendsLeft == 0
    ensures 0 <= redundantCalculations ==> CorrectedInv(r)
    // nothing else differs from the object as constructed
    ensures r.(transmitted := false) == InitialAsWritten(uid, redundantCalculations, starting)
  {
    InitialAsWritten(uid, redundantCalculations, starting).(transmitted := true)
  }

  /** `db.getPoints`: the next batch and what remains of the source. */
  function NextBatch(src: Batches): (r: (seq<Point>, Batches))
    ensures src == [] ==> r == ([], [])
    ensures src != [] ==> src == [r.0] + r.1
  {
    if |src| == 0 then ([], []) else (src[0], src[1..])
  }

  /** The bytes `getNextGroup` ends up with: the serialization, or the one-byte sentinel
      {0} when serialization throws. */
  function Encode(ser: Serializer, g: PointGroup): (msg: Bytes)
    ensures ser(g).None? ==> msg == [0]
    ensures ser(g).Some? ==> msg == ser(g).value
  {
    match ser(g)
    case None => [0]
    case Some(b) => b
  }

  /** What one call of `getNextGroup` does. `fetched` is the group read from the source,
      if it was read at all. */
  datatype Fetch = Fetch(state: State, rest: Batches, fetched: Option<PointGroup>) {
    /** The source returned no points: the call throws to end the loop. */
    predicate OutOfData() {
      fetched.Some? && |fetched.value.points| == 0
    }
  }

  /** `getNextGroup`. */
  function GetNextGroup(s: State, src: Batches, ser: Serializer): (r: Fetch)
    // unless the last send succeeded, nothing is read and nothing changes
    ensures !s.transmitted ==> r == Fetch(s, src, None)
    // otherwise one batch is read, labelled with the post-incremented group number
    ensures s.transmitted ==> r.fetched.Some?
    ensures r.fetched.Some? ==>
      && r.fetched.value.id == IntToString(s.clusterId)
      && r.state.clusterId == Inc32(s.clusterId)
      && (src == [] ==> r.fetched.value.points == [] && r.rest == [])
      && (src != [] ==> src == [r.fetched.value.points] + r.rest)
    // a non-empty group that serializes to more than one byte is stored for R pushes
    ensures r.fetched.Some? && !r.OutOfData() && |Encode(ser, r.fetched.value)| != 1 ==>
      && r.state.redundantSendsLeft == s.redundantCalculations
      && r.state.nextTransmission == Some(Encode(ser, r.fetched.value))
    // an empty batch, or a failed serialization, stores nothing
    ensures r.fetched.Some? && (r.OutOfData() || |Encode(ser, r.fetched.value)| == 1) ==>
      && r.state.redundantSendsLeft == s.redundantSendsLeft
      && r.state.nextTransmission == s.nextTransmission
    // no other field changes
    ensures r.state == s.(clusterId := r.state.clusterId,
                          redundantSendsLeft := r.state.redundantSendsLeft,
                          nextTransmission := r.state.nextTransmission)
  {
    if !s.transmitted then Fetch(s, src, None)
    else
      var (batch, rest) := NextBatch(src);
      var group := PointGroup(batch, IntToString(s.clusterId));
      var counted := s.(clusterId := Inc32(s.clusterId));
      if |batch| == 0 then Fetch(counted, rest, Some(group))
      else
        var message := Encode(ser, group);
        if |message| != 1 then
          Fetch(counted.(redundantSendsLeft := s.redundantCalculations,
                         nextTransmission := Some(message)), rest, Some(group))
        else Fetch(counted, rest, Some(group))
  }

  /** `attemptTransmitPointGroup` as written: records the outcome of the non-blocking send
      and counts a successful one off `redundant_sends_left`. */
  function AttemptTransmitAsWritten(s: State, sendOk: bool): (r: State)
    ensures r.transmitted == sendOk
    ensures sendOk && s.redundantSendsLeft > Int32Min ==> r.redundantSendsLeft == s.redundantSendsLeft - 1
    ensures !sendOk ==> r.redundantSendsLeft == s.redundantSendsLeft
    ensures r == s.(transmitted := sendOk, redundantSendsLeft := r.redundantSendsLeft)
  {
    if sendOk then s.(transmitted := true, redundantSendsLeft := Dec32(s.redundantSendsLeft))
    else s.(transmitted := false)
  }

  /** `attemptTransmitPointGroup` with `clusters_sent` counting the groups that have had
      their last redundant push. */
  function AttemptTransmit(s: State, sendOk: bool): (r: State)
    ensures r.transmitted == sendOk
    ensures sendOk && s.redundantSendsLeft > Int32Min ==> r.redundantSendsLeft == s.redundantSendsLeft - 1
    ensures !sendOk ==> r.redundantSendsLeft == s.redundantSendsLeft
    ensures sendOk && s.redundantSendsLeft == 1 ==> r.clustersSent == Inc32(s.clustersSent)
    ensures !(sendOk && s.redundantSendsLeft == 1) ==> r.clustersSent == s.clustersSent
    ensures r == s.(transmitted := sendOk, redundantSendsLeft := r.redundantSendsLeft,
                    clustersSent := r.clustersSent)
  {
    var t := AttemptTransmitAsWritten(s, sendOk);
    if sendOk && t.redundantSendsLeft == 0 then t.(clustersSent := Inc32(s.clustersSent)) else t
  }

  /** The well-formed states of the push loop: the counter stays within [0, R] and whenever
      it is non-zero a stored, successfully serialized group is waiting. */
  predicate Inv(s: State) {
    && 0 <= s.redundantSendsLeft <= s.redundantCalculations
    && (s.redundantSendsLeft != 0 ==> s.nextTransmission.Some? && |s.nextTransmission.value| != 1)
  }

  /** With the fix, a zero counter always comes with `transmitted` set, so reaching zero
      always leads to a fetch. */
  predicate CorrectedInv(s: State) {
    Inv(s) && (s.redundantSendsLeft == 0 ==> s.transmitted)
  }

  /** Both builds start in a well-formed state when R is not negative. */
  lemma InitialWellFormed(uid: string, redundantCalculations: int32, starting: seq<Point>)
    requires ' ' !in uid && 0 <= redundantCalculations
    ensures Inv(InitialAsWritten(uid, redundantCalculations, starting))
    ensures CorrectedInv(Initial(uid, redundantCalculations, starting))
  {
  }
}

=== FILE: phase_one_loop.dfy ===
/** The `while (true)` loop of PhaseOne's `run`, one pass at a time, driven by the outcome of
    each non-blocking send and by what the non-blocking control receive returns.

    Two builds are modelled side by side. `AsWritten` is the code as it stands. `Corrected`
    fixes the defects the source's own comments and structure show were not intended:
    `transmitted` starts `true` (see PhaseOne.Initial), the end-of-data signal actually ends
    the loop and the DONE report goes out, and `clusters_sent` counts the completed groups. */
module PhaseOneLoop {
  import opened Wrappers
  import opened JavaText
  import opened Shared
  import opened PhaseOne
  import Messages

  datatype Build = AsWritten | Corrected

  /** What the outside world decides during one pass: whether a non-blocking send on the work
      channel succeeds, and what the non-blocking control receive returns. */
  datatype TickInput = TickInput(sendOk: bool, control: Option<string>)

  /** What PhaseOne does that can be observed. */
  datatype Event =
    | Report(text: string)                    // sent on the report channel
    | Fetched(group: PointGroup)              // a group read from the data source
    | Pushed(payload: Bytes)                  // a successful push on the work channel
    | CentroidsPublished(centroids: PointGroup)

  datatype Status =
    | Running    // the loop goes on
    | Finished   // the loop ended and the DONE report was sent
    | Crashed    // an uncaught exception ended `run`: no DONE report

  datatype Outcome = Outcome(state: State, rest: Batches, events: seq<Event>, status: Status)

  /** The payloads pushed, in order. */
  function Pushes(es: seq<Event>): seq<Bytes> {
    if |es| == 0 then []
    else (if es[0].Pushed? then [es[0].payload] else []) + Pushes(es[1..])
  }

  /** The groups read from the data source, in order. */
  function FetchedGroups(es: seq<Event>): seq<PointGroup> {
    if |es| == 0 then []
    else (if es[0].Fetched? then [es[0].group] else []) + FetchedGroups(es[1..])
  }

  /** All points of a list of groups (or batches), in order. */
  function Flatten(bs: seq<seq<Point>>): seq<Point> {
    if |bs| == 0 then [] else bs[0] + Flatten(bs[1..])
  }

  function PointsOf(gs: seq<PointGroup>): seq<seq<Point>> {
    if |gs| == 0 then [] else [gs[0].points] + PointsOf(gs[1..])
  }

  lemma {:induction false} PushesAppend(a: seq<Event>, b: seq<Event>)
    ensures Pushes(a + b) == Pushes(a) + Pushes(b)
    decreases |a|
  {
    if |a| == 0 {
      assert a + b == b;
    } else {
      assert (a + b)[1..] == a[1..] + b;
      PushesAppend(a[1..], b);
    }
  }

  lemma {:induction false} FetchedGroupsAppend(a: seq<Event>, b: seq<Event>)
    ensures FetchedGroups(a + b) == FetchedGroups(a) + FetchedGroups(b)
    decreases |a|
  {
    if |a| == 0 {
      assert a + b == b;
    } else {
      assert (a + b)[1..] == a[1..] + b;
      FetchedGroupsAppend(a[1..], b);
    }
  }

  lemma {:induction false} FlattenAppend(a: seq<seq<Point>>, b: seq<seq<Point>>)
    ensures Flatten(a + b) == Flatten(a) + Flatten(b)
    decreases |a|
  {
    if |a| == 0 {
      assert a + b == b;
    } else {
      assert (a + b)[1..] == a[1..] + b;
      FlattenAppend(a[1..], b);
    }
  }

  lemma {:induction false} PointsOfAppend(a: seq<PointGroup>, b: seq<PointGroup>)
    ensures PointsOf(a + b) == PointsOf(a) + PointsOf(b)
    decreases |a|
  {
    if |a| == 0 {
      assert a + b == b;
    } else {
      assert (a + b)[1..] == a[1..] + b;
      PointsOfAppend(a[1..], b);
    }
  }

  function Send(b: Build, s: State, sendOk: bool): State {
    match b
    case AsWritten => AttemptTransmitAsWritten(s, sendOk)
    case Corrected => AttemptTransmit(s, sendOk)
  }

  /** What the loop does once the source is out of data. */
  function EndOfData(b: Build, s: State, rest: Batches, events: seq<Event>): (r: Outcome)
    ensures b == AsWritten ==> r.status == Crashed && r.events == events
    ensures b == Corrected ==>
      r.status == Finished && r.events == events + [Report(Messages.DoneReport(s.uid, s.clustersSent))]
  {
    match b
    // getNextGroup throws IndexOutOfBoundsException; run only catches NullPointerException
    case AsWritten => Outcome(s, rest, events, Crashed)
    case Corrected => Outcome(s, rest, events + [Report(Messages.DoneReport(s.uid, s.clustersSent))], Finished)
  }

  /** The control message of a pass has no second token. */
  predicate ControlMalformed(control: Option<string>) {
    control.Some? && Messages.DispatchControl(control.value) == Messages.Malformed
  }

  /** The control message of a pass asks for the centroids. */
  predicate CentroidsRequested(control: Option<string>) {
    control.Some? && Messages.DispatchControl(control.value) == Messages.Publish
  }

  /** `es` grew past its first `n` events and its last event publishes `c`. */
  predicate EndsWithPublish(es: seq<Event>, n: nat, c: PointGroup) {
    n < |es| && es[|es| - 1] == CentroidsPublished(c)
  }

  /** The control-receive part of one pass. */
  function HandleControl(s: State, rest: Batches, events: seq<Event>, control: Option<string>): (r: Outcome)
    ensures r.state == s && r.rest == rest && |events| <= |r.events| && r.events[..|events|] == events
    ensures r.status == Crashed <==> control.Some? && Messages.DispatchControl(control.value) == Messages.Malformed
    ensures r.status != Crashed ==> r.status == Running
    ensures r.events == events + [CentroidsPublished(s.iterationCentroids)] <==>
              control.Some? && Messages.DispatchControl(control.value) == Messages.Publish
    ensures !(control.Some? && Messages.DispatchControl(control.value) == Messages.Publish) ==> r.events == events
    ensures FetchedGroups(r.events) == FetchedGroups(events) && Pushes(r.events) == Pushes(events)
  {
    FetchedGroupsAppend(events, [CentroidsPublished(s.iterationCentroids)]);
    PushesAppend(events, [CentroidsPublished(s.iterationCentroids)]);
    match control
    case None => Outcome(s, rest, events, Running)
    case Some(m) =>
      match Messages.DispatchControl(m)
      case Malformed => Outcome(s, rest, events, Crashed)
      case Publish => Outcome(s, rest, events + [CentroidsPublished(s.iterationCentroids)], Running)
      case Ignore => Outcome(s, rest, events, Running)
  }

  /** The events a fetch contributes: the group read, if any. */
  function FetchEvents(f: Fetch): (es: seq<Event>)
    ensures FetchedGroups(es) == (if f.fetched.Some? then [f.fetched.value] else [])
    ensures Pushes(es) == []
  {
    if f.fetched.Some? then [Fetched(f.fetched.value)] else []
  }

  /** First part of a pass: `getNextGroup` when the counter is 0. */
  function FetchPhase(s: State, src: Batches, ser: Serializer): (f: Fetch)
    ensures f.fetched.Some? ==> s.redundantSendsLeft == 0 && s.transmitted
    ensures s.redundantSendsLeft != 0 || !s.transmitted ==> f == Fetch(s, src, None)
    ensures Flatten(src) == Flatten(PointsOf(FetchedGroups(FetchEvents(f)))) + Flatten(f.rest)
    ensures f.OutOfData() ==> f.state.redundantSendsLeft == 0
    ensures f.fetched.Some? ==> f.fetched.value.id == IntToString(s.clusterId)
    ensures f.state.clusterId == (if f.fetched.Some? then Inc32(s.clusterId) else s.clusterId)
    ensures f.state.clustersSent == s.clustersSent
    ensures f.state.redundantCalculations == s.redundantCalculations && f.state.uid == s.uid
    ensures f.state.iterationCentroids == s.iterationCentroids
    ensures Inv(s) ==> Inv(f.state)
    ensures CorrectedInv(s) ==> CorrectedInv(f.state)
  {
    if s.redundantSendsLeft == 0 then
      GetNextGroupKeepsOrder(s, src, ser);
      GetNextGroup(s, src, ser)
    else Fetch(s, src, None)
  }

  /** A fetch removes from the front of the source exactly the points of the group it reads. */
  lemma GetNextGroupKeepsOrder(s: State, src: Batches, ser: Serializer)
    ensures var f := GetNextGroup(s, src, ser);
      Flatten(src) == Flatten(PointsOf(FetchedGroups(FetchEvents(f)))) + Flatten(f.rest)
  {
    var f := GetNextGroup(s, src, ser);
    if f.fetched.Some? {
      var g := f.fetched.value;
      assert PointsOf([g]) == [g.points];
      assert Flatten([g.points]) == g.points;
      if src != [] {
        assert Flatten(src) == src[0] + Flatten(src[1..]);
      }
    }
  }

  /** Second part of a pass: one push attempt when a group is pending, then the control
      receive. */
  function PushPhase(b: Build, s: State, rest: Batches, events: seq<Event>, input: TickInput): (r: Outcome)
    ensures r.rest == rest
    ensures FetchedGroups(r.events) == FetchedGroups(events)
    ensures s.redundantSendsLeft == 0 ==> Pushes(r.events) == Pushes(events) && r.state == s
    ensures s.redundantSendsLeft != 0 && s.nextTransmission.Some? ==>
      Pushes(r.events) == Pushes(events) + (if input.sendOk then [s.nextTransmission.value] else [])
    ensures s.redundantSendsLeft != 0 && s.nextTransmission.Some? ==> r.state == Send(b, s, input.sendOk)
    ensures s.redundantSendsLeft != 0 && s.nextTransmission.None? ==>
      r.status == Crashed && r.events == events && r.state == s
    // unless the send itself throws, the control receive decides how the pass ends
    ensures |events| <= |r.events| && r.events[..|events|] == events
    ensures s.redundantSendsLeft == 0 || s.nextTransmission.Some? ==>
      && (r.status == Crashed <==> ControlMalformed(input.control))
      && (EndsWithPublish(r.events, |events|, s.iterationCentroids) <==> CentroidsRequested(input.control))
    ensures r.state.clusterId == s.clusterId
    ensures r.state.redundantCalculations == s.redundantCalculations && r.state.uid == s.uid
    ensures b == AsWritten ==> r.state.clustersSent == s.clustersSent
    ensures Inv(s) ==> forall p | p in Pushes(r.events) :: p in Pushes(events) || |p| != 1
    ensures r.status != Finished
    ensures Inv(s) ==> Inv(r.state)
    ensures b == Corrected && CorrectedInv(s) ==> CorrectedInv(r.state)
  {
    if s.redundantSendsLeft == 0 then HandleControl(s, rest, events, input.control)
    else if s.nextTransmission.None? then
      // send(null) throws NullPointerException outside the try block
      Outcome(s, rest, events, Crashed)
    else
      var pushed := if input.sendOk then [Pushed(s.nextTransmission.value)] else [];
      FetchedGroupsAppend(events, pushed);
      PushesAppend(events, pushed);
      HandleControl(Send(b, s, input.sendOk), rest, events + pushed, input.control)
  }

  /** One pass of the loop: fetch when the counter is 0, push when it is not, then look at
      one control message. */
  function Tick(b: Build, s: State, src: Batches, ser: Serializer, input: TickInput): (r: Outcome)
    // a group is read only when the counter is 0 and the last send succeeded
    ensures |FetchedGroups(r.events)| <= 1
    ensures FetchedGroups(r.events) != [] ==> s.redundantSendsLeft == 0 && s.transmitted
    ensures s.redundantSendsLeft != 0 || !s.transmitted ==> FetchedGroups(r.events) == [] && r.rest == src
    // the source is consumed in order, batch by batch
    ensures Flatten(src) == Flatten(PointsOf(FetchedGroups(r.events))) + Flatten(r.rest)
    // the loop ends normally only in the corrected build, on an empty batch
    ensures r.status == Finished ==> b == Corrected && |FetchedGroups(r.events)| == 1 && FetchedGroups(r.events)[0].points == []
    ensures r.status == Running ==> forall g | g in FetchedGroups(r.events) :: g.points != []
    // groups are numbered by the post-incremented counter
    ensures FetchedGroups(r.events) != [] ==> FetchedGroups(r.events)[0].id == IntToString(s.clusterId)
    ensures r.state.clusterId == (if FetchedGroups(r.events) == [] then s.clusterId else Inc32(s.clusterId))
    // the one-byte failure sentinel is never pushed
    ensures Inv(s) ==> forall p | p in Pushes(r.events) :: |p| != 1
    ensures r.state.redundantCalculations == s.redundantCalculations && r.state.uid == s.uid
    // as written, clusters_sent never moves
    ensures b == AsWritten ==> r.state.clustersSent == s.clustersSent
    // the well-formed states are closed under a pass
    ensures Inv(s) ==> Inv(r.state)
    ensures b == Corrected && CorrectedInv(s) ==> CorrectedInv(r.state)
  {
    var f := FetchPhase(s, src, ser);
    var fetched := FetchEvents(f);
    if f.OutOfData() then
      FetchedGroupsAppend(fetched, [Report(Messages.DoneReport(f.state.uid, f.state.clustersSent))]);
      EndOfData(b, f.state, f.rest, fetched)
    else PushPhase(b, f.state, f.rest, fetched, input)
  }

  /** Short of the end of data, a well-formed pass crashes exactly on a malformed control
      message and publishes the centroids exactly when they are requested. */
  lemma TickControl(b: Build, s: State, src: Batches, ser: Serializer, input: TickInput)
    requires Inv(s)
    ensures var r := Tick(b, s, src, ser, input);
      (forall g | g in FetchedGroups(r.events) :: g.points != []) ==>
        && (r.status == Crashed <==> ControlMalformed(input.control))
        && (EndsWithPublish(r.events, 0, s.iterationCentroids) <==> CentroidsRequested(input.control))
  {
    var f := FetchPhase(s, src, ser);
    if !f.OutOfData() {
      var r := PushPhase(b, f.state, f.rest, FetchEvents(f), input);
      assert EndsWithPublish(r.events, |FetchEvents(f)|, s.iterationCentroids) ==>
        EndsWithPublish(r.events, 0, s.iterationCentroids);
    }
  }

  /** Runs the loop for as many passes as there are inputs, or until it stops. */
  function RunTicks(b: Build, s: State, src: Batches, ser: Serializer, inputs: seq<TickInput>): Outcome
    decreases |inputs|
  {
    if |inputs| == 0 then Outcome(s, src, [], Running)
    else
      var t := Tick(b, s, src, ser, inputs[0]);
      if t.status != Running then t
      else
        var o := RunTicks(b, t.state, t.rest, ser, inputs[1..]);
        o.(events := t.events + o.events)
  }

  /** `run`: report START, then loop. */
  function Run(b: Build, s: State, src: Batches, ser: Serializer, inputs: seq<TickInput>): (r: Outcome)
    ensures |r.events| >= 1 && r.events[0] == Report(Messages.StartReport(s.uid))
  {
    var o := RunTicks(b, s, src, ser, inputs);
    o.(events := [Report(Messages.StartReport(s.uid))] + o.events)
  }

  // ---------------------------------------------------------------------------
  // Whole runs

  /** The counter stays within [0, R] for the whole run, and a pending group is always a
      stored, successfully serialized one. */
  lemma {:induction false} RunKeepsInv(b: Build, s: State, src: Batches, ser: Serializer, inputs: seq<TickInput>)
    requires Inv(s)
    ensures Inv(RunTicks(b, s, src, ser, inputs).state)
    ensures b == Corrected && CorrectedInv(s) ==> CorrectedInv(RunTicks(b, s, src, ser, inputs).state)
    decreases |inputs|
  {
    if |inputs| > 0 {
      var t := Tick(b, s, src, ser, inputs[0]);
      if t.status == Running {
        RunKeepsInv(b, t.state, t.rest, ser, inputs[1..]);
      }
    }
  }

  /** The groups read during a run are the source's leading batches, in order: no point is
      skipped or read twice. */
  lemma {:induction false} RunConsumesInOrder(b: Build, s: State, src: Batches, ser: Serializer, inputs: seq<TickInput>)
    ensures var o := RunTicks(b, s, src, ser, inputs);
      && Flatten(src) == Flatten(PointsOf(FetchedGroups(o.events))) + Flatten(o.rest)
      && ConsumedBatches(src, FetchedGroups(o.events), o.rest)
    decreases |inputs|
  {
    if |inputs| > 0 {
      var t := Tick(b, s, src, ser, inputs[0]);
      TickConsumesBatch(b, s, src, ser, inputs[0]);
      if t.status == Running {
        var o' := RunTicks(b, t.state, t.rest, ser, inputs[1..]);
        RunConsumesInOrder(b, t.state, t.rest, ser, inputs[1..]);
        ConsumedCompose(src, t.rest, o'.rest, t.events, o'.events);
        BatchesCompose(src, t.rest, o'.rest, FetchedGroups(t.events), FetchedGroups(o'.events));
        FetchedGroupsAppend(t.events, o'.events);
      } else {
        assert t.events + [] == t.events;
      }
    } else {
      assert src == [] + src;
    }
  }

  /** The groups `gs` are, batch for batch, the front of `src` and `rest` is what follows;
      or the source ran dry, and the last group read is the empty batch it then returns. */
  predicate ConsumedBatches(src: Batches, gs: seq<PointGroup>, rest: Batches) {
    || PointsOf(gs) + rest == src
    || (rest == [] && PointsOf(gs) == src + [[]])
  }

  /** One pass reads the source's first batch whole, or the empty batch of a dry source; a
      pass that reads an empty batch does not let the loop go on. */
  lemma TickConsumesBatch(b: Build, s: State, src: Batches, ser: Serializer, input: TickInput)
    ensures var t := Tick(b, s, src, ser, input);
      && ConsumedBatches(src, FetchedGroups(t.events), t.rest)
      && (t.status == Running ==> PointsOf(FetchedGroups(t.events)) + t.rest == src)
  {
    var t := Tick(b, s, src, ser, input);
    var gs := FetchedGroups(t.events);
    if gs == [] {
      assert PointsOf(gs) == [];
      assert [] + src == src;
    } else {
      assert PointsOf(gs) == [gs[0].points];
    }
  }

  lemma BatchesCompose(src: Batches, mid: Batches, rest: Batches, g1: seq<PointGroup>, g2: seq<PointGroup>)
    requires PointsOf(g1) + mid == src && ConsumedBatches(mid, g2, rest)
    ensures ConsumedBatches(src, g1 + g2, rest)
  {
    PointsOfAppend(g1, g2);
    if PointsOf(g2) + rest == mid {
      assert PointsOf(g1 + g2) + rest == PointsOf(g1) + (PointsOf(g2) + rest);
    } else {
      assert PointsOf(g1 + g2) == PointsOf(g1) + (mid + [[]]);
    }
  }

  lemma ConsumedCompose(src: Batches, mid: Batches, rest: Batches, e1: seq<Event>, e2: seq<Event>)
    requires Flatten(src) == Flatten(PointsOf(FetchedGroups(e1))) + Flatten(mid)
    requires Flatten(mid) == Flatten(PointsOf(FetchedGroups(e2))) + Flatten(rest)
    ensures Flatten(src) == Flatten(PointsOf(FetchedGroups(e1 + e2))) + Flatten(rest)
  {
    var a, b := FetchedGroups(e1), FetchedGroups(e2);
    FetchedGroupsAppend(e1, e2);
    PointsOfAppend(a, b);
    FlattenAppend(PointsOf(a), PointsOf(b));
    var fa, fb := Flatten(PointsOf(a)), Flatten(PointsOf(b));
    assert Flatten(PointsOf(FetchedGroups(e1 + e2))) == fa + fb;
    AppendAssoc(fa, fb, Flatten(rest));
  }

  lemma IndexAppend<T>(a: seq<T>, b: seq<T>, k: int)
    requires |a| <= k < |a| + |b|
    ensures (a + b)[k] == b[k - |a|]
  {
  }

  lemma AppendAssoc<T>(a: seq<T>, b: seq<T>, c: seq<T>)
    ensures a + b + c == a + (b + c)
  {
  }

  /** The groups read in a stretch of a run are numbered first, first + 1, ..., and the
      counter ends just past the last one. */
  predicate NumberedFrom(first: int, o: Outcome) {
    && o.state.clusterId == first + |FetchedGroups(o.events)|
    && forall k :: 0 <= k < |FetchedGroups(o.events)| ==> FetchedGroups(o.events)[k].id == IntToString(first + k)
  }

  lemma NumberedCompose(first: int, t: Outcome, o: Outcome)
    requires NumberedFrom(first, t) && NumberedFrom(t.state.clusterId, o)
    ensures NumberedFrom(first, o.(events := t.events + o.events))
  {
    FetchedGroupsAppend(t.events, o.events);
    var a: seq<PointGroup>, b: seq<PointGroup> := FetchedGroups(t.events), FetchedGroups(o.events);
    forall k | 0 <= k < |a + b|
      ensures (a + b)[k].id == IntToString(first + k)
    {
      if k >= |a| {
        IndexAppend(a, b, k);
      }
    }
  }

  /** The k-th group read in a run is numbered clusterId + k, as long as the counter does
      not wrap. */
  lemma {:induction false} RunNumbersGroups(b: Build, s: State, src: Batches, ser: Serializer, inputs: seq<TickInput>)
    requires s.clusterId + |inputs| <= Int32Max
    ensures |FetchedGroups(RunTicks(b, s, src, ser, inputs).events)| <= |inputs|
    ensures NumberedFrom(s.clusterId, RunTicks(b, s, src, ser, inputs))
    decreases |inputs|
  {
    if |inputs| > 0 {
      var t := Tick(b, s, src, ser, inputs[0]);
      TickNumbersGroup(b, s, src, ser, inputs[0]);
      if t.status == Running {
        var o' := RunTicks(b, t.state, t.rest, ser, inputs[1..]);
        RunNumbersGroups(b, t.state, t.rest, ser, inputs[1..]);
        NumberedCompose(s.clusterId, t, o');
        FetchedGroupsAppend(t.events, o'.events);
      }
    }
  }

  lemma TickNumbersGroup(b: Build, s: State, src: Batches, ser: Serializer, input: TickInput)
    requires s.clusterId < Int32Max
    ensures NumberedFrom(s.clusterId, Tick(b, s, src, ser, input))
  {
  }

  /** Groups numbered by consecutive non-wrapping counters have distinct ids. */
  lemma ConsecutiveNumbersDistinct(first: int, gs: seq<PointGroup>)
    requires Int32Min <= first && first + |gs| <= Int32Max
    requires forall k :: 0 <= k < |gs| ==> gs[k].id == IntToString(first + k)
    ensures forall i, j :: 0 <= i < j < |gs| ==> gs[i].id != gs[j].id
  {
    forall i, j | 0 <= i < j < |gs|
      ensures gs[i].id != gs[j].id
    {
      if gs[i].id == gs[j].id {
        IntToStringInjective(first + i, first + j);
      }
    }
  }

  /** Group ids are never reused within a run. */
  lemma FetchedIdsDistinct(b: Build, s: State, src: Batches, ser: Serializer, inputs: seq<TickInput>)
    requires s.clusterId + |inputs| <= Int32Max
    ensures var gs := FetchedGroups(RunTicks(b, s, src, ser, inputs).events);
      forall i, j :: 0 <= i < j < |gs| ==> gs[i].id != gs[j].id
  {
    RunNumbersGroups(b, s, src, ser, inputs);
    ConsecutiveNumbersDistinct(s.clusterId, FetchedGroups(RunTicks(b, s, src, ser, inputs).events));
  }

  /** The one-byte failure sentinel is never pushed: a group that fails to serialize is
      dropped, not transmitted. */
  lemma {:induction false} RunNeverPushesSentinel(b: Build, s: State, src: Batches, ser: Serializer, inputs: seq<TickInput>)
    requires Inv(s)
    ensures forall p | p in Pushes(RunTicks(b, s, src, ser, inputs).events) :: |p| != 1
    decreases |inputs|
  {
    if |inputs| > 0 {
      var t := Tick(b, s, src, ser, inputs[0]);
      if t.status == Running {
        var o' := RunTicks(b, t.state, t.rest, ser, inputs[1..]);
        RunNeverPushesSentinel(b, t.state, t.rest, ser, inputs[1..]);
        PushesAppend(t.events, o'.events);
      }
    }
  }

  /** The pushes already made of the group in flight. */
  function InFlight(s: State): int {
    if s.redundantSendsLeft == 0 then 0 else s.redundantCalculations - s.redundantSendsLeft
  }

  lemma TickAccounting(s: State, src: Batches, ser: Serializer, input: TickInput)
    requires CorrectedInv(s) && 0 < s.redundantCalculations && s.clustersSent < Int32Max
    ensures var t := Tick(Corrected, s, src, ser, input);
      || (t.state.clustersSent == s.clustersSent && |Pushes(t.events)| + InFlight(s) == InFlight(t.state))
      || (t.state.clustersSent == s.clustersSent + 1
          && |Pushes(t.events)| + InFlight(s) == s.redundantCalculations + InFlight(t.state))
  {
    var t := Tick(Corrected, s, src, ser, input);
    var f := FetchPhase(s, src, ser);
    var fetched := FetchEvents(f);
    var r := s.redundantCalculations;
    if f.OutOfData() {
      PushesAppend(fetched, [Report(Messages.DoneReport(f.state.uid, f.state.clustersSent))]);
      assert Pushes([Report(Messages.DoneReport(f.state.uid, f.state.clustersSent))]) == [];
      assert t.state.clustersSent == s.clustersSent && InFlight(t.state) == 0 == InFlight(s);
      assert |Pushes(t.events)| == 0;
    } else {
      var s1 := f.state;
      assert t == PushPhase(Corrected, s1, f.rest, fetched, input);
      assert InFlight(s1) == InFlight(s) && s1.clustersSent == s.clustersSent;
      if s1.redundantSendsLeft == 0 {
        assert t.state == s1 && |Pushes(t.events)| == 0;
      } else {
        var s2 := AttemptTransmit(s1, input.sendOk);
        assert t.state == s2;
        if !input.sendOk {
          assert Pushes(t.events) == [] && s2.redundantSendsLeft == s1.redundantSendsLeft;
        } else if s1.redundantSendsLeft == 1 {
          assert |Pushes(t.events)| == 1 && InFlight(s1) == r - 1 && InFlight(s2) == 0;
          assert t.state.clustersSent - s.clustersSent == 1;
        } else {
          assert |Pushes(t.events)| == 1 && InFlight(s2) == InFlight(s1) + 1;
        }
      }
    }
  }

  /** R pushes for each of n groups, counted one group at a time. */
  function PushesFor(n: nat, r: int): int {
    if n == 0 then 0 else PushesFor(n - 1, r) + r
  }

  lemma {:induction false} PushesForIsProduct(n: nat, r: int)
    ensures PushesFor(n, r) == n * r
  {
    if n > 0 {
      PushesForIsProduct(n - 1, r);
    }
  }

  lemma {:induction false} PushesForAtLeast(n: nat, r: int)
    requires 1 <= r
    ensures n <= PushesFor(n, r)
  {
    if n > 0 {
      PushesForAtLeast(n - 1, r);
    }
  }

  lemma {:induction false} PushesForAdd(a: nat, b: nat, r: int)
    ensures PushesFor(a + b, r) == PushesFor(a, r) + PushesFor(b, r)
    decreases b
  {
    if b > 0 {
      PushesForAdd(a, b - 1, r);
    }
  }

  /** The pushes of a stretch of a run match the groups it completed: R for each one, plus
      the change in the pushes made of the group in flight. */
  predicate Accounted(s: State, o: Outcome) {
    && s.clustersSent <= o.state.clustersSent
    && |Pushes(o.events)| + InFlight(s)
         == PushesFor(o.state.clustersSent - s.clustersSent, s.redundantCalculations) + InFlight(o.state)
  }

  lemma AccountedCompose(s: State, t: Outcome, o: Outcome)
    requires Accounted(s, t) && Accounted(t.state, o)
    requires t.state.redundantCalculations == s.redundantCalculations
    ensures Accounted(s, o.(events := t.events + o.events))
  {
    PushesAppend(t.events, o.events);
    PushesForAdd(t.state.clustersSent - s.clustersSent, o.state.clustersSent - t.state.clustersSent,
                 s.redundantCalculations);
  }

  /** In the corrected build every group gets exactly R successful pushes before it counts as
      sent: over any run, the pushes made equal R per completed group, plus those of the group
      still in flight. */
  lemma {:induction false} RunAccounting(s: State, src: Batches, ser: Serializer, inputs: seq<TickInput>)
    requires CorrectedInv(s) && 0 < s.redundantCalculations
    requires s.clustersSent + |inputs| <= Int32Max
    ensures RunTicks(Corrected, s, src, ser, inputs).state.clustersSent <= s.clustersSent + |inputs|
    ensures Accounted(s, RunTicks(Corrected, s, src, ser, inputs))
    decreases |inputs|
  {
    if |inputs| == 0 {
      assert PushesFor(0, s.redundantCalculations) == 0;
    } else {
      var t := Tick(Corrected, s, src, ser, inputs[0]);
      TickAccounting(s, src, ser, inputs[0]);
      assert PushesFor(1, s.redundantCalculations) == s.redundantCalculations;
      assert Accounted(s, t);
      if t.status == Running {
        var o' := RunTicks(Corrected, t.state, t.rest, ser, inputs[1..]);
        RunAccounting(t.state, t.rest, ser, inputs[1..]);
        AccountedCompose(s, t, o');
      }
    }
  }

  // ---------------------------------------------------------------------------
  // The pushes of one group

  /** The events up to, not including, the first group read. */
  function BeforeFetch(es: seq<Event>): (r: seq<Event>)
    ensures |r| <= |es| && r == es[..|r|]
    ensures forall i :: 0 <= i < |r| ==> !r[i].Fetched?
    ensures |r| < |es| ==> es[|r|].Fetched?
  {
    if |es| == 0 then []
    else if es[0].Fetched? then []
    else [es[0]] + BeforeFetch(es[1..])
  }

  lemma {:induction false} BeforeFetchAppend(a: seq<Event>, b: seq<Event>)
    requires FetchedGroups(a) == []
    ensures BeforeFetch(a + b) == a + BeforeFetch(b)
    decreases |a|
  {
    if |a| == 0 {
      assert a + b == b;
    } else {
      FetchedGroupsAppend([a[0]], a[1..]);
      assert [a[0]] + a[1..] == a;
      assert (a + b)[1..] == a[1..] + b;
      BeforeFetchAppend(a[1..], b);
    }
  }

  lemma BeforeFetchAfterFetch(a: seq<Event>, b: seq<Event>)
    requires |a| > 0 && a[0].Fetched?
    ensures BeforeFetch(a + b) == []
  {
    assert (a + b)[0] == a[0];
  }

  /** Every payload pushed in `es` is the one `stored`. */
  predicate PushedOnly(es: seq<Event>, stored: Option<Bytes>) {
    forall q | q in Pushes(es) :: Some(q) == stored
  }

  /** A pass with a group in flight reads nothing, pushes only the stored payload, and counts
      each push off the counter. */
  lemma TickPushesStored(s: State, src: Batches, ser: Serializer, input: TickInput)
    requires CorrectedInv(s) && s.redundantSendsLeft > 0
    ensures var t := Tick(Corrected, s, src, ser, input);
      && FetchedGroups(t.events) == []
      && PushedOnly(t.events, s.nextTransmission)
      && |Pushes(t.events)| + t.state.redundantSendsLeft == s.redundantSendsLeft
      && t.state.nextTransmission == s.nextTransmission
      && CorrectedInv(t.state)
  {
    var f := FetchPhase(s, src, ser);
    assert f == Fetch(s, src, None);
    assert FetchEvents(f) == [];
    assert Pushes([]) == [];
  }

  /** An idle pass opens with the group it reads. */
  lemma TickFetchesFirst(s: State, src: Batches, ser: Serializer, input: TickInput)
    requires s.redundantSendsLeft == 0 && s.transmitted
    ensures var t := Tick(Corrected, s, src, ser, input); |t.events| > 0 && t.events[0].Fetched?
  {
    var f := FetchPhase(s, src, ser);
    assert f.fetched.Some?;
    assert FetchEvents(f) == [Fetched(f.fetched.value)];
    if !f.OutOfData() {
      var t := PushPhase(Corrected, f.state, f.rest, FetchEvents(f), input);
      assert FetchedGroups(t.events) == [f.fetched.value];
    }
  }

  /** Corrected, from any well-formed state, the pushes made before the next group is read
      all carry the stored payload; there are at most as many as the counter says, and
      exactly that many when a next group is read at all. */
  lemma {:induction false} StoredPayloadPushedUntilNextFetch(s: State, src: Batches, ser: Serializer,
                                                           inputs: seq<TickInput>)
    requires CorrectedInv(s)
    ensures var pre := BeforeFetch(RunTicks(Corrected, s, src, ser, inputs).events);
      && PushedOnly(pre, s.nextTransmission)
      && |Pushes(pre)| <= s.redundantSendsLeft
      && (|pre| < |RunTicks(Corrected, s, src, ser, inputs).events| ==> |Pushes(pre)| == s.redundantSendsLeft)
    decreases |inputs|
  {
    if |inputs| > 0 {
      var t := Tick(Corrected, s, src, ser, inputs[0]);
      if s.redundantSendsLeft == 0 {
        TickFetchesFirst(s, src, ser, inputs[0]);
        if t.status == Running {
          var o' := RunTicks(Corrected, t.state, t.rest, ser, inputs[1..]);
          BeforeFetchAfterFetch(t.events, o'.events);
        } else {
          BeforeFetchAfterFetch(t.events, []);
          assert t.events + [] == t.events;
        }
        assert Pushes([]) == [];
      } else {
        TickPushesStored(s, src, ser, inputs[0]);
        if t.status == Running {
          var o' := RunTicks(Corrected, t.state, t.rest, ser, inputs[1..]);
          StoredPayloadPushedUntilNextFetch(t.state, t.rest, ser, inputs[1..]);
          BeforeFetchAppend(t.events, o'.events);
          PushesAppend(t.events, BeforeFetch(o'.events));
        } else {
          BeforeFetchAppend(t.events, []);
          assert t.events + [] == t.events;
        }
      }
    }
  }

  /** Corrected, an idle pass that reads a non-empty batch which serializes opens with that
      group, then only pushes its serialization, counting each push off R. */
  lemma IdleTickStoresGroup(s: State, src: Batches, ser: Serializer, input: TickInput)
    requires CorrectedInv(s) && s.redundantSendsLeft == 0 && 0 <= s.redundantCalculations
    requires src != [] && src[0] != []
    requires |Encode(ser, PointGroup(src[0], IntToString(s.clusterId)))| != 1
    ensures var g := PointGroup(src[0], IntToString(s.clusterId));
      var t := Tick(Corrected, s, src, ser, input);
      && |t.events| > 0 && t.events[0] == Fetched(g)
      && FetchedGroups(t.events[1..]) == []
      && PushedOnly(t.events[1..], Some(Encode(ser, g)))
      && |Pushes(t.events[1..])| + t.state.redundantSendsLeft == s.redundantCalculations
      && (t.state.nextTransmission == Some(Encode(ser, g)) || t.state.redundantSendsLeft == 0)
      && CorrectedInv(t.state)
  {
    var g := PointGroup(src[0], IntToString(s.clusterId));
    var f := FetchPhase(s, src, ser);
    assert f.fetched == Some(g) && !f.OutOfData();
    var s1 := f.state;
    assert s1.redundantSendsLeft == s.redundantCalculations && s1.nextTransmission == Some(Encode(ser, g));
    var t := Tick(Corrected, s, src, ser, input);
    assert t == PushPhase(Corrected, s1, f.rest, [Fetched(g)], input);
    var x := t.events[1..];
    assert t.events == [Fetched(g)] + x;
    PushesAppend([Fetched(g)], x);
    FetchedGroupsAppend([Fetched(g)], x);
    assert Pushes([Fetched(g)]) == [] && FetchedGroups([Fetched(g)]) == [g];
  }

  /** Corrected, when a pass reads a non-empty batch that serializes, the group is pushed
      as its serialization and nothing else until the next group is read: at most R
      times, and exactly R times when another group is read. */
  lemma StoredGroupPushedRTimes(s: State, src: Batches, ser: Serializer, inputs: seq<TickInput>)
    requires CorrectedInv(s) && s.redundantSendsLeft == 0 && 0 <= s.redundantCalculations
    requires src != [] && src[0] != [] && |inputs| > 0
    requires |Encode(ser, PointGroup(src[0], IntToString(s.clusterId)))| != 1
    ensures var g := PointGroup(src[0], IntToString(s.clusterId));
      var es := RunTicks(Corrected, s, src, ser, inputs).events;
      && |es| > 0 && es[0] == Fetched(g)
      && PushedOnly(BeforeFetch(es[1..]), Some(Encode(ser, g)))
      && |Pushes(BeforeFetch(es[1..]))| <= s.redundantCalculations
      && (|BeforeFetch(es[1..])| < |es| - 1 ==> |Pushes(BeforeFetch(es[1..]))| == s.redundantCalculations)
  {
    var g := PointGroup(src[0], IntToString(s.clusterId));
    var t := Tick(Corrected, s, src, ser, inputs[0]);
    IdleTickStoresGroup(s, src, ser, inputs[0]);
    var y: seq<Event> := [];
    if t.status == Running {
      y := RunTicks(Corrected, t.state, t.rest, ser, inputs[1..]).events;
      StoredPayloadPushedUntilNextFetch(t.state, t.rest, ser, inputs[1..]);
    } else {
      assert Pushes([]) == [];
    }
    assert RunTicks(Corrected, s, src, ser, inputs).events == t.events + y;
    PushesAfterStoring(t.events, y, Some(Encode(ser, g)), t.state.nextTransmission, t.state.redundantSendsLeft);
  }

  /** The pushes after the read that opens `e`, up to the next read. */
  lemma PushesAfterStoring(e: seq<Event>, y: seq<Event>, stored: Option<Bytes>, later: Option<Bytes>, left: nat)
    requires |e| > 0 && FetchedGroups(e[1..]) == [] && PushedOnly(e[1..], stored)
    requires later == stored || left == 0
    requires PushedOnly(BeforeFetch(y), later) && |Pushes(BeforeFetch(y))| <= left
    requires |BeforeFetch(y)| < |y| ==> |Pushes(BeforeFetch(y))| == left
    ensures PushedOnly(BeforeFetch((e + y)[1..]), stored)
    ensures |Pushes(BeforeFetch((e + y)[1..]))| <= |Pushes(e[1..])| + left
    ensures |BeforeFetch((e + y)[1..])| < |e + y| - 1 ==> |Pushes(BeforeFetch((e + y)[1..]))| == |Pushes(e[1..])| + left
  {
    assert (e + y)[1..] == e[1..] + y;
    PushesBeforeNextFetch(e[1..], y, stored, later, left);
  }

  /** Joins the pushes of a pass that read no group to the pushes that follow it before
      the next read. */
  lemma PushesBeforeNextFetch(x: seq<Event>, y: seq<Event>, stored: Option<Bytes>, later: Option<Bytes>,
                              left: nat)
    requires FetchedGroups(x) == [] && PushedOnly(x, stored)
    requires later == stored || left == 0
    requires PushedOnly(BeforeFetch(y), later) && |Pushes(BeforeFetch(y))| <= left
    requires |BeforeFetch(y)| < |y| ==> |Pushes(BeforeFetch(y))| == left
    ensures BeforeFetch(x + y) == x + BeforeFetch(y)
    ensures PushedOnly(BeforeFetch(x + y), stored)
    ensures |Pushes(BeforeFetch(x + y))| == |Pushes(x)| + |Pushes(BeforeFetch(y))| <= |Pushes(x)| + left
    ensures |BeforeFetch(x + y)| < |x + y| ==> |Pushes(BeforeFetch(x + y))| == |Pushes(x)| + left
  {
    BeforeFetchAppend(x, y);
    PushesAppend(x, BeforeFetch(y));
    if left == 0 {
      assert Pushes(BeforeFetch(y)) == [];
    }
  }

  /** As written, `clusters_sent` keeps its starting value through any run. */
  lemma {:induction false} ClustersSentFrozenAsWritten(s: State, src: Batches, ser: Serializer, inputs: seq<TickInput>)
    ensures RunTicks(AsWritten, s, src, ser, inputs).state.clustersSent == s.clustersSent
    decreases |inputs|
  {
    if |inputs| > 0 {
      var t := Tick(AsWritten, s, src, ser, inputs[0]);
      if t.status == Running {
        ClustersSentFrozenAsWritten(t.state, t.rest, ser, inputs[1..]);
      }
    }
  }

  /** As written, a state with counter 0 and `transmitted` false never changes its push
      state: nothing is read and nothing is pushed, whatever happens outside. */
  lemma {:induction false} StuckUntilTransmitted(s: State, src: Batches, ser: Serializer, inputs: seq<TickInput>)
    requires s.redundantSendsLeft == 0 && !s.transmitted
    ensures var o := RunTicks(AsWritten, s, src, ser, inputs);
      && FetchedGroups(o.events) == [] && Pushes(o.events) == []
      && o.rest == src && o.state == s && o.status != Finished
    decreases |inputs|
  {
    if |inputs| > 0 {
      var t := Tick(AsWritten, s, src, ser, inputs[0]);
      if t.status == Running {
        var o' := RunTicks(AsWritten, t.state, t.rest, ser, inputs[1..]);
        StuckUntilTransmitted(t.state, t.rest, ser, inputs[1..]);
        FetchedGroupsAppend(t.events, o'.events);
        PushesAppend(t.events, o'.events);
      }
    }
  }

  /** As written, `run` never distributes anything: `transmitted` starts false and the
      counter starts 0, so no group is ever read and no push is ever made. */
  lemma AsWrittenNeverDistributes(uid: string, r: int32, starting: seq<Point>, src: Batches,
                                  ser: Serializer, inputs: seq<TickInput>)
    requires ' ' !in uid
    ensures var o := Run(AsWritten, InitialAsWritten(uid, r, starting), src, ser, inputs);
      FetchedGroups(o.events) == [] && Pushes(o.events) == [] && o.rest == src && o.status != Finished
  {
    var s := InitialAsWritten(uid, r, starting);
    var o := RunTicks(AsWritten, s, src, ser, inputs);
    StuckUntilTransmitted(s, src, ser, inputs);
    FetchedGroupsAppend([Report(Messages.StartReport(uid))], o.events);
    PushesAppend([Report(Messages.StartReport(uid))], o.events);
  }

  /** With `transmitted` starting true, the first pass reads the first batch as group "0",
      stores its serialization for R pushes and pushes it once if the send succeeds. */
  lemma FirstPassDistributes(uid: string, r: int32, starting: seq<Point>, src: Batches,
                             ser: Serializer, input: TickInput)
    requires ' ' !in uid && 0 < r
    requires src != [] && src[0] != []
    requires |Encode(ser, PointGroup(src[0], "0"))| != 1
    ensures var t := Tick(Corrected, Initial(uid, r, starting), src, ser, input);
      && FetchedGroups(t.events) == [PointGroup(src[0], "0")]
      && t.rest == src[1..]
      && Pushes(t.events) == (if input.sendOk then [Encode(ser, PointGroup(src[0], "0"))] else [])
      && t.state.redundantSendsLeft == (if input.sendOk then r - 1 else r)
  {
    assert IntToString(0) == "0";
    var s := Initial(uid, r, starting);
    var f := FetchPhase(s, src, ser);
    assert f.fetched == Some(PointGroup(src[0], "0"));
  }

  /** As written, reading an empty batch (the source is exhausted, or returns an empty batch
      early) ends `run` with an uncaught exception: no DONE report
      and nothing stored or pushed. */
  lemma ExhaustionCrashesAsWritten(s: State, src: Batches, ser: Serializer, input: TickInput)
    requires s.redundantSendsLeft == 0 && s.transmitted && (src == [] || src[0] == [])
    ensures var t := Tick(AsWritten, s, src, ser, input);
      && t.status == Crashed
      && t.events == [Fetched(PointGroup([], IntToString(s.clusterId)))]
      && t.state.redundantSendsLeft == 0 && t.state.nextTransmission == s.nextTransmission
  {
  }

  /** Corrected, reading an empty batch ends the loop and sends the DONE report with the number
      of groups sent; nothing is stored or pushed. */
  lemma ExhaustionReportsDone(s: State, src: Batches, ser: Serializer, input: TickInput)
    requires s.redundantSendsLeft == 0 && s.transmitted && (src == [] || src[0] == [])
    ensures var t := Tick(Corrected, s, src, ser, input);
      && t.status == Finished
      && t.events == [Fetched(PointGroup([], IntToString(s.clusterId))),
                      Report(Messages.DoneReport(s.uid, s.clustersSent))]
      && t.state.redundantSendsLeft == 0 && t.state.nextTransmission == s.nextTransmission
  {
  }

  // ---------------------------------------------------------------------------
  // Progress when every send succeeds

  /** Passes in which every send succeeds and no control message arrives. */
  function AllSendsOk(n: nat): (inputs: seq<TickInput>)
    ensures |inputs| == n
    ensures forall i :: 0 <= i < n ==> inputs[i] == TickInput(true, None)
  {
    seq(n, _ => TickInput(true, None))
  }

  /** Every group serializes to something other than the one-byte sentinel. */
  ghost predicate SerializesAll(ser: Serializer) {
    forall g :: ser(g).Some? && |ser(g).value| != 1
  }

  ghost predicate NoEmptyBatch(src: Batches) {
    forall i :: 0 <= i < |src| ==> src[i] != []
  }

  /** The run ended normally, its last event is the DONE report, and that report counts
      `sent` groups. */
  predicate EndsWithDone(o: Outcome, uid: string, sent: int) {
    && o.status == Finished
    && |o.events| > 0
    && o.events[|o.events| - 1] == Report(Messages.DoneReport(uid, sent))
    && o.state.clustersSent == sent
    && o.state.redundantSendsLeft == 0
  }

  /** The fields a pass in which every send succeeds leaves alone. */
  predicate SameConfig(s: State, t: State) {
    t.uid == s.uid && t.redundantCalculations == s.redundantCalculations
  }

  /** A pass with a group in flight and a successful send: one push, nothing read. */
  lemma PassPushesPending(s: State, src: Batches, ser: Serializer)
    requires CorrectedInv(s) && s.redundantSendsLeft > 0 && s.clustersSent < Int32Max
    ensures var t := Tick(Corrected, s, src, ser, TickInput(true, None));
      && t.status == Running && t.rest == src && CorrectedInv(t.state) && SameConfig(s, t.state)
      && t.state.redundantSendsLeft == s.redundantSendsLeft - 1
      && t.state.clustersSent == s.clustersSent + (if s.redundantSendsLeft == 1 then 1 else 0)
      && t.state.clusterId == s.clusterId
  {
  }

  /** An idle pass with data left and a successful send: the next batch is read, stored and
      pushed once. */
  lemma PassFetchesAndPushes(s: State, src: Batches, ser: Serializer)
    requires CorrectedInv(s) && s.redundantSendsLeft == 0 && 1 <= s.redundantCalculations
    requires src != [] && src[0] != [] && s.clusterId < Int32Max && s.clustersSent < Int32Max
    requires ser(PointGroup(src[0], IntToString(s.clusterId))).Some?
    requires |ser(PointGroup(src[0], IntToString(s.clusterId))).value| != 1
    ensures var t := Tick(Corrected, s, src, ser, TickInput(true, None));
      && t.status == Running && t.rest == src[1..] && CorrectedInv(t.state) && SameConfig(s, t.state)
      && t.state.redundantSendsLeft == s.redundantCalculations - 1
      && t.state.clustersSent == s.clustersSent + (if s.redundantCalculations == 1 then 1 else 0)
      && t.state.clusterId == s.clusterId + 1
  {
    var f := FetchPhase(s, src, ser);
    assert f.fetched == Some(PointGroup(src[0], IntToString(s.clusterId)));
  }

  /** An idle pass on an empty source ends the loop with the DONE report. */
  lemma PassFinishes(s: State, ser: Serializer, input: TickInput)
    requires s.redundantSendsLeft == 0 && s.transmitted
    ensures EndsWithDone(Tick(Corrected, s, [], ser, input), s.uid, s.clustersSent)
  {
  }

  /** A normal pass followed by a run that ends with DONE is a run that ends with DONE. */
  lemma EndsWithDoneAfterPass(s: State, src: Batches, ser: Serializer, t: Outcome, m: nat,
                               uid: string, sent: int)
    requires t == Tick(Corrected, s, src, ser, TickInput(true, None)) && t.status == Running
    requires EndsWithDone(RunTicks(Corrected, t.state, t.rest, ser, AllSendsOk(m)), uid, sent)
    ensures EndsWithDone(RunTicks(Corrected, s, src, ser, AllSendsOk(m + 1)), uid, sent)
  {
    assert AllSendsOk(m + 1)[0] == TickInput(true, None);
    assert AllSendsOk(m + 1)[1..] == AllSendsOk(m);
  }

  /** The number of groups a run that drains `src` reports: those already sent, the one in
      flight and one per batch left. */
  function Sent(s: State, src: Batches): int {
    s.clustersSent + |src| + (if s.redundantSendsLeft > 0 then 1 else 0)
  }

  /** With every send succeeding and every group serializing, the corrected loop finishes:
      after the pushes left for the group in flight and R passes per remaining batch, one
      more pass finds the source empty and sends DONE with the number of groups sent. */
  lemma {:induction false} Drains(s: State, src: Batches, ser: Serializer, n: nat, uid: string, sent: int)
    requires SerializesAll(ser) && Draining(s, src, n)
    requires uid == s.uid && sent == Sent(s, src)
    ensures EndsWithDone(RunTicks(Corrected, s, src, ser, AllSendsOk(n)), uid, sent)
    decreases |src|, s.redundantSendsLeft
  {
    var ok := TickInput(true, None);
    var t := Tick(Corrected, s, src, ser, ok);
    if s.redundantSendsLeft == 0 && src == [] {
      PassFinishes(s, ser, ok);
      RunTicksUnfoldDone(s, ser, n);
    } else {
      if s.redundantSendsLeft == 0 {
        DrainFetchStep(s, src, ser, n);
      } else {
        DrainPushStep(s, src, ser, n);
      }
      var m: nat := n - 1;
      Drains(t.state, t.rest, ser, m, uid, sent);
      EndsWithDoneAfterPass(s, src, ser, t, m, uid, sent);
    }
  }

  /** What `Drains` needs of a state: well-formed, R at least 1, no empty batch ahead, `n`
      passes exactly enough, and no counter about to wrap. */
  ghost predicate Draining(s: State, src: Batches, n: int) {
    && CorrectedInv(s) && 1 <= s.redundantCalculations && NoEmptyBatch(src)
    && n == PushesFor(|src|, s.redundantCalculations) + s.redundantSendsLeft + 1
    && Sent(s, src) < Int32Max && s.clusterId + |src| < Int32Max
  }

  lemma DrainFetchStep(s: State, src: Batches, ser: Serializer, n: int)
    requires SerializesAll(ser) && Draining(s, src, n) && s.redundantSendsLeft == 0 && src != []
    ensures var t := Tick(Corrected, s, src, ser, TickInput(true, None));
      && t.status == Running && Draining(t.state, t.rest, n - 1) && 1 <= n
      && t.state.uid == s.uid && Sent(t.state, t.rest) == Sent(s, src) && |t.rest| < |src|
  {
    var g := PointGroup(src[0], IntToString(s.clusterId));
    assert ser(g).Some? && |ser(g).value| != 1;
    PassFetchesAndPushes(s, src, ser);
    var t := Tick(Corrected, s, src, ser, TickInput(true, None));
    assert NoEmptyBatch(t.rest);
    PushesForAtLeast(|t.rest|, s.redundantCalculations);
  }

  lemma DrainPushStep(s: State, src: Batches, ser: Serializer, n: int)
    requires Draining(s, src, n) && s.redundantSendsLeft != 0
    ensures var t := Tick(Corrected, s, src, ser, TickInput(true, None));
      && t.status == Running && Draining(t.state, t.rest, n - 1) && 1 <= n
      && t.state.uid == s.uid && Sent(t.state, t.rest) == Sent(s, src)
      && t.rest == src && t.state.redundantSendsLeft < s.redundantSendsLeft
  {
    PassPushesPending(s, src, ser);
    PushesForAtLeast(|src|, s.redundantCalculations);
  }

  lemma RunTicksUnfoldDone(s: State, ser: Serializer, n: nat)
    requires 1 <= n && s.redundantSendsLeft == 0 && s.transmitted
    ensures RunTicks(Corrected, s, [], ser, AllSendsOk(n)) == Tick(Corrected, s, [], ser, TickInput(true, None))
  {
    assert AllSendsOk(n)[0] == TickInput(true, None);
  }

  /** From an idle state, a source of m non-empty batches is distributed in exactly m * R + 1
      passes when every send succeeds: m * R pushes in all, the empty batch that follows is
      never pushed, and the DONE report counts the m groups. Which payload each push carries
      is `StoredGroupPushedRTimes`. The proof is not by induction; the attribute only stops
      Dafny from adding induction hypotheses over `src` that the solver would then explore. */
  lemma {:induction false} DrainedPushTotal(s: State, src: Batches, ser: Serializer, n: nat)
    requires CorrectedInv(s) && 1 <= s.redundantCalculations && s.redundantSendsLeft == 0
    requires SerializesAll(ser) && NoEmptyBatch(src)
    requires n == |src| * s.redundantCalculations + 1
    requires s.clustersSent + n <= Int32Max && s.clusterId + |src| < Int32Max
    ensures EndsWithDone(RunTicks(Corrected, s, src, ser, AllSendsOk(n)), s.uid, s.clustersSent + |src|)
    ensures |Pushes(RunTicks(Corrected, s, src, ser, AllSendsOk(n)).events)| == n - 1
  {
    var r := s.redundantCalculations;
    PushesForProduct(|src|, r, n - 1);
    PushesForAtLeast(|src|, r);
    assert Draining(s, src, n);
    Drains(s, src, ser, n, s.uid, s.clustersSent + |src|);
    RunAccounting(s, src, ser, AllSendsOk(n));
    var o := RunTicks(Corrected, s, src, ser, AllSendsOk(n));
    AccountedIdle(s, o, |src|, n - 1);
  }

  /** Between two idle states, the pushes made are R per group counted. */
  lemma AccountedIdle(s: State, o: Outcome, m: nat, k: int)
    requires Accounted(s, o) && s.redundantSendsLeft == 0 && o.state.redundantSendsLeft == 0
    requires o.state.clustersSent == s.clustersSent + m && PushesFor(m, s.redundantCalculations) == k
    ensures |Pushes(o.events)| == k
  {
  }

  lemma PushesForProduct(m: nat, r: int, k: int)
    requires k == m * r
    ensures PushesFor(m, r) == k
  {
    PushesForIsProduct(m, r);
  }
}

=== FILE: phase_one_scenario.dfy ===
/** A worked run of the corrected push loop. */
module PhaseOneScenario {
  import opened Wrappers
  import opened JavaText
  import opened Shared
  import opened PhaseOne
  import opened PhaseOneLoop
  import Messages

  /** A serializer that always succeeds with a three-byte payload. */
  function FixedSerializer(g: PointGroup): (b: Option<Bytes>)
    ensures b.Some? && |b.value| == 3
  {
    Some([1, 2, 3])
  }

  /** Three non-empty batches, redundancy R, every send succeeding: the corrected loop pushes
      3 * R times in 3 * R + 1 passes and ends with the report "<uid> DONE 3". */
  lemma ThreeGroupsPushedRTimes(uid: string, r: int32, batch: seq<Point>)
    requires ' ' !in uid && 1 <= r <= 1000 && batch != []
    ensures var o := RunTicks(Corrected, Initial(uid, r, []), [batch, batch, batch], FixedSerializer,
                              AllSendsOk(3 * r + 1));
      && o.status == Finished
      && |Pushes(o.events)| == 3 * r
      && o.events[|o.events| - 1] == Report(uid + " DONE 3")
  {
    var s := Initial(uid, r, []);
    var src := [batch, batch, batch];
    assert CorrectedInv(s) && NoEmptyBatch(src) && SerializesAll(FixedSerializer);
    DrainedPushTotal(s, src, FixedSerializer, 3 * r + 1);
    DoneThree(uid);
  }

  lemma DoneThree(uid: string)
    ensures Messages.DoneReport(uid, 3) == uid + " DONE 3"
  {
    assert IntToString(3) == "3";
  }
}

=== FILE: shared.dfy ===
/** Value types shared by the coordinator and the client. */
module Shared {

  /** A data point. The coordinates are carried, never computed on. */
  datatype Point = Point(x: real, y: real)

  /** A task unit: an ordered batch of points and the label it travels under
      (a group number for work, "<uid> CENTROID <iteration>" for centroids). */
  datatype PointGroup = PointGroup(points: seq<Point>, id: string)

  type byte = x: int | 0 <= x < 256

  /** A wire payload. */
  type Bytes = seq<byte>
}

=== FILE: wrappers.dfy ===
/** Optional values: a Java reference that may be null, a receive that may return nothing,
    a parse that may throw. */
module Wrappers {

  datatype Option<+T> = None | Some(value: T)
}
